=== FILE: README.md ===
# Checklist classifier and add-and-upload ladder

This project models, in Dafny, the two pieces of decision logic in the
document-upload robot for a client portal.

1. **The checklist classifier**, `classify_for_checklist` in `glade/classify.py`.
   It lower-cases a document title and tests an ordered list of regular
   expressions and substring checks. The first test that fires decides the pair
   (checklist, title). A title that no test fires goes to
   `("additional", "UnrecognizableDoc")`.
2. **Adding an item and uploading a file**, `add_document_and_upload` in
   `glade/documents.py`. It is modelled as a ladder of lookups on an abstract
   page. It also includes the labelled-switch helper `_set_toggle`: this finds a
   switch, infers whether it is on, and presses it only when it is not in the
   wanted state.

## Files and modules

- `text.dfy`, module `Text`:
  - ASCII lower-casing;
  - the character classes behind `\s`, `\w`, `\d` and `\b`;
  - substring containment.
- `pattern.dfy`, module `Pattern`: the subset of regular expressions the
  classifier uses, as token sequences. These are literals, an optional
  character, `\s`, `\s*`/`\s+`, `\d` and `\b`. A pattern is an alternation of
  token sequences. There are two semantics:
  - `Spans`, a declarative definition of "this alternative matches from `i` to
    `j`";
  - `Search`, an executable backtracking matcher in the manner of `re.search`.

  `SearchCorrect` proves that the two agree.
- `classify.dfy`, module `Classify`:
  - the checklist and title enumerations and their exact labels;
  - every pattern of the source;
  - the rule table in source order;
  - the classifier, as a walk over that table.
- `classify_facts.dfy`, module `ClassifyFacts`: identity precedence, the
  bank/card overlap, the card suffix, case-insensitivity and the default bucket.
- `toggle.dfy` and `toggle_facts.dfy`, modules `Toggle` and `ToggleFacts`: the
  switch helper.
- `documents.dfy` and `documents_facts.dfy`, modules `Documents` and
  `DocumentsFacts`: the add-and-upload procedure and its failure ladder.

## Modelling decisions

- **The `if` chain is a table walk.** The source is a sequence of
  `if re.search(...) ...: return`. `Classify.Rules` lists the eleven tests in
  the same order. `Classify.FirstMatch` returns the pair of the first rule whose
  pattern occurs.
  - A disjunction `re.search(P) or "w" in s` becomes one more alternative
    `Lit("w")` of the rule's pattern. A literal alternative occurs exactly when
    the substring does.
  - The order of alternatives inside a pattern does not affect whether
    `re.search` finds a match. So the provider list keeps `capital ?one` and
    `fifth ?third` at its end.
  - `\b(a|b)\b` is distributed into the alternatives `\ba\b` and `\bb\b`.
- **Character classes are ASCII.** Lower-casing maps only `A`–`Z`. `\w` is
  `[A-Za-z0-9_]` and `\d` is `0`–`9`. `\s` is the exact set of characters for
  which `str.isspace()` holds.
- **A page is a record of lookup outcomes.** `Documents.Page` records, for each
  locator the procedure queries, whether it finds anything at the moment it is
  queried. Fallback locators are separate fields, e.g. the role-based and
  text-based "Add an item" lookups. The panel is the open dialog's `Scope` when
  there is one, and the page's `Scope` otherwise.
- **A control is a record of call outcomes.** `Toggle.Control` records what
  each browser call on a found switch returns: a value, or an error (`Throws`).
  This covers `is_checked`, the three attribute reads, click, Space and Enter.
- **Effects are a log.** The procedure returns the sequence of its visible
  effects and the error it stopped with, if any. Every error the source raises
  is a `Documents.Failure`. An error raised while reading a switch's class is
  `ToggleUnreadable`.
- **Labels are enumerations.** `Classify.Checklist` and `Classify.Title`
  stand for the exact strings the classifier returns. These are
  `Classify.ChecklistLabel` and `Classify.TitleLabel`. Distinct values have
  distinct strings (`Classify.LabelsInjective`), so the enumerations lose
  nothing.
- **A consequence of the source:** `_set_toggle` reads the class attribute by
  substring. A class of `button`, `inactive` or `toggle-unchecked` therefore
  reads as "on" (`ToggleFacts.SubstringClassesReadOn`). So a switch in an off
  state whose only state signal is such a class is not pressed when it should be
  turned on.

## Model

| member | source | states |
|---|---|---|
| Text.LowerIdempotent | glade/classify.py:21 | lower-casing twice is lower-casing once |
| Pattern.MatchFromCorrect | glade/classify.py:4-12 | the backtracking matcher succeeds at a position exactly when some span of the declarative semantics starts there |
| Pattern.SearchCorrect | glade/classify.py:24 | `re.search` of an alternation succeeds exactly when some alternative occurs at some position |
| Pattern.NoHitInEmpty | glade/classify.py:20 | a pattern whose every alternative consumes a character finds nothing in the empty string |
| Classify.Normalize | glade/classify.py:20-21 | a missing title becomes the empty string; otherwise each character is the title's character at that place, lower-cased, so the result has the title's length and no upper-case letter |
| Classify.LabelsInjective | glade/classify.py:25-59 | distinct checklists and distinct titles are returned as distinct strings |
| Classify.ClassifyForChecklist | glade/classify.py:14-59 | the checklist is "initial" exactly when the title is "Personal Info" |
| Classify.FirstMatchKeepsPairing | glade/classify.py:24-59 | a rule table that pairs "initial" only with "Personal Info" keeps that pairing in its result |
| Classify.FirstMatchSpec | glade/classify.py:24-59 | the walk returns the default exactly when no rule fires, and otherwise the pair of the earliest rule that fires |
| Classify.FiringRuleBoundsWinner | glade/classify.py:31-56 | when rule k fires, the winner is a rule at or before k and is the earliest that fires |
| Classify.RulesShape | glade/classify.py:24-56 | eleven rules; none assigns the default; "initial" only with "Personal Info"; every title used once |
| Classify.FirstMatchWins | glade/classify.py:24-59 | the result is the default iff no rule fires, and has rule k's title iff rule k fires first |
| ClassifyFacts.PassPortSpans | glade/classify.py:24 | `\bpass\s*port\b` spans exactly a bounded "pass", whitespace, "port" |
| ClassifyFacts.IdRuleIsStandaloneToken | glade/classify.py:24 | the identity rule fires iff the title holds a standalone id, dl, ss, passport or pass-port token |
| ClassifyFacts.PersonalInfoIffIdToken | glade/classify.py:24-25 | the result is ("initial", "Personal Info") iff the lower-cased title holds such a token, whatever else it says |
| ClassifyFacts.SsCardBeatsStatement | glade/classify.py:24-29 | "SS card and Chase statement" is Personal Info although it names a bank and a statement |
| ClassifyFacts.SsInsideWordIsNoToken | glade/classify.py:24 | "ss" inside "ssn" does not fire the identity rule |
| ClassifyFacts.PairSpans | glade/classify.py:4-5 | `a ?b` spans exactly the text "a b" or "ab" |
| ClassifyFacts.PairOccurs | glade/classify.py:4-5 | `a ?b` occurs iff "a b" or "ab" occurs |
| ClassifyFacts.LitsHit | glade/classify.py:28 | an alternation of literal words, or a chain of `in` tests, fires iff one of the words occurs |
| ClassifyFacts.SpacedProvidersHit | glade/classify.py:4 | `capital ?one` or `fifth ?third` fires iff "capital one", "capitalone", "fifth third" or "fifththird" occurs |
| ClassifyFacts.BankRuleIff | glade/classify.py:28 | the bank test fires iff a provider name (with or without the space in capital one and fifth third), "statement" or "bank" occurs |
| ClassifyFacts.BankWithoutIdToken | glade/classify.py:24-29 | the title is "Bank statements" iff the lower-cased title has no identity token and passes the bank test |
| ClassifyFacts.SharedNamesListed | glade/classify.py:4-5 | discover, synchrony and comenity are both provider and card names |
| ClassifyFacts.CardWordFires | glade/classify.py:46 | a card name anywhere fires the card rule |
| ClassifyFacts.SharedNameFiresBoth | glade/classify.py:4-5 | a shared name or "capital one" fires both the bank and the card pattern |
| ClassifyFacts.SharedNamesNeverCard | glade/classify.py:24-47 | such a title fires the card pattern yet lands in Personal Info or Bank statements, never Credit Card |
| ClassifyFacts.CardSuffixAt | glade/classify.py:46 | `-\d{4}\b` matches at i iff a dash and four digits start there and no word character follows |
| ClassifyFacts.FiveDigitsAreNoSuffix | glade/classify.py:46 | a dash with five digits is no card suffix at that dash |
| ClassifyFacts.DashFourDigitsIsCard | glade/classify.py:31-47 | when no earlier rule fires, a dash with exactly four digits gives Credit Card |
| ClassifyFacts.CaseInsensitive | glade/classify.py:21 | the result depends only on the lower-cased title |
| ClassifyFacts.RulesNeedText | glade/classify.py:4-12 | every alternative of every rule consumes at least one character |
| ClassifyFacts.EmptyTitleIsDefault | glade/classify.py:20-59 | a missing or empty title lands in ("additional", "UnrecognizableDoc") |
| Toggle.Target | glade/documents.py:200-216 | the switch role first, then the checkbox role, then the control inside the label's container; none iff all three miss |
| Toggle.AttrState | glade/documents.py:224-228 | a non-empty aria-checked decides alone: on iff it lower-cases to true/on/checked, off iff to false/off/unchecked; otherwise data-state decides the same way; an absent data-state or a read error names no state |
| Toggle.AttrText | glade/documents.py:224 | reading the attribute text raises iff aria-checked raises, or it is absent or empty and data-state raises |
| Toggle.ClassState | glade/documents.py:231-233 | an absent class reads off; a present one reads on iff a keyword occurs in its lower-cased text; a read error propagates |
| Toggle.InferState | glade/documents.py:218-233 | `is_checked` decides when it answers; otherwise the attribute state when it names one; otherwise the class; raises iff all three fail and the class read raises |
| Toggle.Interact | glade/documents.py:236-245 | click, then Space, then Enter, each only after the previous raised; each attempt goes through exactly when the control accepts that action; the last error is dropped |
| Toggle.SetToggle | glade/documents.py:199-247 | not found without interaction when no control; raises iff the state read raises; presses iff the state differs from the wish, and then tries exactly the click, Space, Enter ladder of `Interact` on the found control |
| ToggleFacts.NotFoundIffNoLookupHits | glade/documents.py:200-216 | "not found, nothing touched" exactly when none of the three lookups yields a control |
| ToggleFacts.FoundIsReportedEvenIfPressesFail | glade/documents.py:235-247 | a found, readable control reports True even if every press fails |
| ToggleFacts.IsCheckedWins | glade/documents.py:219-221 | an answer from `is_checked` decides the state whatever the attributes say |
| ToggleFacts.AriaCheckedDecides | glade/documents.py:224-228 | a non-empty aria-checked decides in any case and data-state is not read |
| ToggleFacts.EmptyAriaFallsBackToDataState | glade/documents.py:224-228 | an absent or empty aria-checked hands over to data-state |
| ToggleFacts.AttributeCaseIgnored | glade/documents.py:224-228 | "TRUE" reads on and "Off" reads off |
| ToggleFacts.AttributeErrorFallsToClass | glade/documents.py:222-233 | an error reading the attributes is dropped and the class decides |
| ToggleFacts.ClassErrorPropagates | glade/documents.py:231-233 | an error reading the class escapes the helper |
| ToggleFacts.SubstringClassesReadOn | glade/documents.py:231-233 | classes "button", "Inactive" and "toggle-unchecked" read as on |
| ToggleFacts.NoClassReadsOff | glade/documents.py:232-233 | an absent class reads as off |
| ToggleFacts.ClassCaseIgnored | glade/documents.py:232-233 | a class string and its lower-cased form read the same |
| ToggleFacts.InteractLandsOnce | glade/documents.py:236-245 | at most one press goes through, exactly when click, Space or Enter is accepted |
| ToggleFacts.PressOnlyWhenStateDiffers | glade/documents.py:235-246 | a press goes through only when the state read the opposite of the wish; none is tried when it read the wish |
| ToggleFacts.TwoCallsPressAtMostOnce | glade/documents.py:235-246 | two calls with the same wish put through at most one press when the first press shows in the next read |
| Documents.AddDocumentAndUpload | glade/documents.py:132-341 | a finished run ends with the processing wait; the run starts with the "Add an item" click and then the title entry |
| Documents.SendFile | glade/documents.py:317-339 | the file is sent iff the chooser appears or a file input exists: the earlier log is kept and gains the send, by the chooser when it appears and by the file input otherwise, then the wait; otherwise the run stops with the file-input error and the log unchanged |
| DocumentsFacts.FailureIsFirstMissing | glade/documents.py:147-339 | the run's failure is the first failure of the ladder whose condition holds |
| DocumentsFacts.FailureLadder | glade/documents.py:147-339 | the run fails with f iff f's condition holds and no earlier one does; it succeeds iff none holds |
| DocumentsFacts.RanksDistinct | glade/documents.py:147-339 | each failure has its own place on the ladder |
| DocumentsFacts.NoAddItemStopsFirst | glade/documents.py:146-153 | without an "Add an item" control nothing is touched and that error is raised |
| DocumentsFacts.AbsentSwitchesNeverFail | glade/documents.py:199-254 | a switch that cannot be found never stops the procedure |
| DocumentsFacts.SwitchesInOrder | glade/documents.py:249-254 | past the switches, the log holds Required set off, then visibility set on, right after the title |
| DocumentsFacts.ChooserFallsBackToFileInput | glade/documents.py:317-328 | with no chooser after the Upload click, the file goes through the file input; failure iff there is none |
| DocumentsFacts.SuccessSendsFileOnce | glade/documents.py:256-339 | a finished run clicks Add document and Upload and then sends the file, by the chooser when it appears; no other entry of the log sends a file |
| DocumentsFacts.ProcessingErrorsIgnored | glade/documents.py:330-339 | an error of the processing wait does not change the run |
| DocumentsFacts.DialogScopesLookups | glade/documents.py:157-172 | with a dialog open, the rest of the page's name field, switches and button play no part |

## Left out

- Unicode lower-casing is left out. Python's `str.lower()` also maps non-ASCII
  letters, and `\w` and `\d` on `str` patterns also accept non-ASCII letters and
  digits. The model is ASCII-only for all three.
- The regular-expression engine is not modelled in general: only the token
  forms the classifier's patterns use.
- Playwright timing is left out: every `wait_for_timeout`, `wait_for_load_state`
  and timeout. Where a timeout changes the branch taken, its outcome is a field.
  A click that times out is `clickOk` false, so Space is tried
  (`glade/documents.py:237-240`). A chooser that does not appear in time is
  `chooserOpens` false, so the file input is used (`glade/documents.py:318-328`).
  Every lookup is its outcome at the moment it is made.
- The six dialog selectors (`glade/documents.py:159-170`) are collapsed into
  "a dialog is open or not". The selector strings of every lookup are left out.
  Each lookup is its found/not-found outcome.
- Errors raised by actions on controls that were found are left out. These are
  the clicks on "Add an item", the name field (`glade/documents.py:188`),
  "Add document", "Open" and "Upload", typing the title, and setting the
  files. The model treats them as succeeding.
- The file chooser's non-timeout errors are left out.
- The texts of the errors the procedure raises (`glade/documents.py:153`, 186,
  261, 298, 304, 315 and 327) are left out. Each `Documents.Failure`
  constructor except `ToggleUnreadable` stands for one of these fixed
  messages. `ToggleUnreadable` is the browser's own error from the class read
  (`glade/documents.py:232`), which escapes uncaught.
- `Page.processingFails` is a field that no step reads, because the source
  drops the wait's errors (`DocumentsFacts.ProcessingErrorsIgnored`).
- The processing wait's file-name derivation and the wait itself
  (`glade/uploads.py`) are left out. Its errors are dropped by the source, and
  the model does the same.
- `_row_container_for_text` (`glade/documents.py:99-119`) is one outcome: a
  row, none, or an error. Its XPath search is left out.
- The rest of `glade/documents.py` is left out: passcode entry, checklist
  opening, card menus and the backward-compatible wrappers. Also left out are
  `glade/navigation.py`, `glade/workflows.py`, `glade/auth.py`,
  `glade/helpers.py`, `glade/uploads.py`, `glade/config.py`, `server.py`,
  `main.py` and `dev.py`, because they are browser navigation, polling, HTTP
  plumbing and configuration.
- The final log line of `add_document_and_upload` is left out.

=== FILE: classify.dfy ===
/**
 The checklist classifier: a document title is lower-cased and checked
 against an ordered list of patterns; the first pattern that occurs decides
 the checklist bucket, and a title no pattern matches goes to the
 "UnrecognizableDoc" bucket of the additional checklist.
 */
module Classify {
  import opened Text
  import opened Pattern

  datatype Checklist = Initial | Additional

  datatype Title =
    | PersonalInfo
    | BankStatements
    | VehicleInformation
    | Income
    | TaxReturns
    | Lawsuits
    | Lease
    | CreditCard
    | Utility
    | CreditCounseling
    | MortgageHoa
    | UnrecognizableDoc

  /** The `(checklist, title)` pair the classifier returns. */
  datatype Placement = Placement(checklist: Checklist, title: Title)

  function ChecklistLabel(c: Checklist): (r: string) {
    match c
    case Initial => "initial"
    case Additional => "additional"
  }

  /** The title strings the classifier returns. */
  function TitleLabel(t: Title): (r: string) {
    match t
    case PersonalInfo => "Personal Info"
    case BankStatements => "Bank statements"
    case VehicleInformation => "Vehicle information"
    case Income => "Income"
    case TaxReturns => "Tax returns"
    case Lawsuits => "Lawsuits"
    case Lease => "Lease"
    case CreditCard => "Credit Card"
    case Utility => "Utility"
    case CreditCounseling => "Credit Counseling"
    case MortgageHoa => "Mortgage/HOA"
    case UnrecognizableDoc => "UnrecognizableDoc"
  }

  /** Distinct buckets have distinct names, so the pair of strings the
      classifier returns determines the placement and back. */
  lemma LabelsInjective()
    ensures forall a, b :: ChecklistLabel(a) == ChecklistLabel(b) ==> a == b
    ensures forall a, b :: TitleLabel(a) == TitleLabel(b) ==> a == b
  {
  }

  // ---- the patterns, one per rule, each an alternation of token sequences ----

  /** One literal alternative per word. */
  function Lits(words: seq<string>): (r: seq<Alt>)
    ensures |r| == |words|
    ensures forall n :: 0 <= n < |words| ==> r[n] == [Lit(words[n])]
  {
    seq(|words|, n requires 0 <= n < |words| => [Lit(words[n])])
  }

  /** `\bw\b`: `w` as a whole word. */
  function Word(w: string): (r: Alt) {
    [Boundary, Lit(w), Boundary]
  }

  const CapitalOne: Alt := [Lit("capital"), OptChar(' '), Lit("one")]
  const FifthThird: Alt := [Lit("fifth"), OptChar(' '), Lit("third")]

  /** `\b(id|dl|ss|passport|pass\s*port)\b` */
  const IdPattern: seq<Alt> :=
    [Word("id"), Word("dl"), Word("ss"), Word("passport"),
     [Boundary, Lit("pass"), SpaceRun(0), Lit("port"), Boundary]]

  /** The literal provider names, then the `"statement" in s` and `"bank" in s` tests. */
  const BankWords: seq<string> :=
    ["chase", "wells", "wellsfargo", "bofa", "bank of america", "citibank", "citi", "pnc",
     "usaa", "discover", "truist", "td", "huntington", "ally", "synchrony", "comenity",
     "navy federal", "nfcu", "credit union", "statement", "bank"]

  const BankPattern: seq<Alt> := Lits(BankWords) + [CapitalOne, FifthThird]

  const VehiclePattern: seq<Alt> :=
    Lits(["vehicle", "auto", "vin", "title", "registration"])
    + [[Lit("insurance"), SpaceRun(0), Lit("card")]]

  const IncomePattern: seq<Alt> :=
    [[Lit("pay"), SpaceRun(0), Lit("stub")]] + Lits(["paystub", "payroll", "wage", "income"])

  /** The tax alternation, then the `"tax return" in s` test. */
  const TaxPattern: seq<Alt> :=
    [[Lit("tax"), SpaceRun(0), Lit("return")],
     [Lit("return"), SpaceRun(0), Lit("transcript")],
     [Boundary, Lit("20"), Digit, Digit, SpaceRun(1), Lit("tax")],
     [Boundary, Lit("tax liability")]]
    + Lits(["tax return"])

  const LawsuitPattern: seq<Alt> :=
    Lits(["lawsuit", "summons", "complaint", "garnish", "judgment"])
    + [[Lit("v."), Space], [Lit("vs."), Space]]

  const LeasePattern: seq<Alt> := Lits(["lease", "rental", "rent", "timeshare"])

  const CardWords: seq<string> :=
    ["visa", "mastercard", "amex", "american express", "discover", "synchrony", "comenity"]

  /** `-\d{4}\b`: a dash, exactly four digits, then no further word character. */
  const CardSuffix: Alt := [Lit("-"), Digit, Digit, Digit, Digit, Boundary]

  /** The card alternation, then the `-\d{4}\b` search. */
  const CardPattern: seq<Alt> :=
    Lits(CardWords) + [[Lit("credit"), SpaceRun(0), Lit("card")], CapitalOne, CardSuffix]

  /** The utility alternation, then the `"utility" in s` test. */
  const UtilityPattern: seq<Alt> :=
    Lits(["utility", "electric", "water", "internet", "phone", "gas", "sewer", "trash",
          "cable", "bill", "utility"])

  const CounselingPattern: seq<Alt> := Lits(["credit counseling", "certificate of counseling"])

  const MortgagePattern: seq<Alt> :=
    Lits(["mortgage", "hoa", "homeowner", "home owners", "association"])

  /** A rule of the ordered table: the pair it returns and the pattern that fires it. */
  datatype Rule = Rule(checklist: Checklist, title: Title, pattern: seq<Alt>)

  /** The rules in the order the classifier tries them. */
  const Rules: seq<Rule> := [
    Rule(Initial, PersonalInfo, IdPattern),
    Rule(Additional, BankStatements, BankPattern),
    Rule(Additional, VehicleInformation, VehiclePattern),
    Rule(Additional, Income, IncomePattern),
    Rule(Additional, TaxReturns, TaxPattern),
    Rule(Additional, Lawsuits, LawsuitPattern),
    Rule(Additional, Lease, LeasePattern),
    Rule(Additional, CreditCard, CardPattern),
    Rule(Additional, Utility, UtilityPattern),
    Rule(Additional, CreditCounseling, CounselingPattern),
    Rule(Additional, MortgageHoa, MortgagePattern)
  ]

  /** The pair returned when no rule fires. */
  const Default: Placement := Placement(Additional, UnrecognizableDoc)

  /** `ai_name or ""`, then `.lower()`. */
  function Normalize(name: Option<string>): (s: string)
    ensures IsLower(s)
    ensures name.None? ==> s == ""
    ensures name.Some? ==> |s| == |name.value|
    ensures name.Some? ==> forall i :: 0 <= i < |s| ==> s[i] == LowerChar(name.value[i])
  {
    LowerIsLower(if name.Some? then name.value else "");
    Lower(if name.Some? then name.value else "")
  }

  /** Walks an ordered rule table and returns the pair of the first rule whose
      pattern occurs in `s`, or the default pair. */
  function FirstMatch(s: string, rules: seq<Rule>): (r: Placement)
    decreases |rules|
  {
    if rules == [] then Default
    else if Search(s, rules[0].pattern) then Placement(rules[0].checklist, rules[0].title)
    else FirstMatch(s, rules[1..])
  }

  /** The rule table pairs the initial checklist with exactly the personal-info title. */
  predicate InitialOnlyForPersonalInfo(rules: seq<Rule>) {
    forall n :: 0 <= n < |rules| ==>
      (rules[n].checklist == Initial <==> rules[n].title == PersonalInfo)
  }

  /** `classify_for_checklist`: the walk over the fixed table. */
  function ClassifyForChecklist(name: Option<string>): (r: Placement)
    ensures r.checklist == Initial <==> r.title == PersonalInfo
  {
    RulesShape();
    FirstMatchKeepsPairing(Normalize(name), Rules);
    FirstMatch(Normalize(name), Rules)
  }

  lemma {:induction false} FirstMatchKeepsPairing(s: string, rules: seq<Rule>)
    requires InitialOnlyForPersonalInfo(rules)
    ensures var r := FirstMatch(s, rules); r.checklist == Initial <==> r.title == PersonalInfo
    decreases |rules|
  {
    if rules != [] && !Search(s, rules[0].pattern) {
      assert InitialOnlyForPersonalInfo(rules[1..]) by {
        forall n | 0 <= n < |rules| - 1 ensures rules[1..][n] == rules[n + 1] {}
      }
      FirstMatchKeepsPairing(s, rules[1..]);
    }
  }

  /** Rule `n` is the earliest rule of `rules` whose pattern occurs in `s`. */
  ghost predicate FiresFirst(s: string, rules: seq<Rule>, n: int) {
    && 0 <= n < |rules|
    && Search(s, rules[n].pattern)
    && forall m :: 0 <= m < n ==> !Search(s, rules[m].pattern)
  }

  /** The table walk returns the pair of the earliest rule that fires, and the
      default exactly when none fires (no rule of the table assigns the default). */
  lemma {:induction false} FirstMatchSpec(s: string, rules: seq<Rule>)
    requires forall n :: 0 <= n < |rules| ==> rules[n].title != UnrecognizableDoc
    ensures FirstMatch(s, rules) == Default <==>
            forall n :: 0 <= n < |rules| ==> !Search(s, rules[n].pattern)
    ensures forall n :: FiresFirst(s, rules, n) ==>
              FirstMatch(s, rules) == Placement(rules[n].checklist, rules[n].title)
    ensures FirstMatch(s, rules) == Default || exists n :: FiresFirst(s, rules, n)
    decreases |rules|
  {
    if rules != [] {
      var rest := rules[1..];
      FirstMatchSpec(s, rest);
      forall n | 1 <= n < |rules| ensures rules[n] == rest[n - 1] {}
      if Search(s, rules[0].pattern) {
        assert FiresFirst(s, rules, 0);
      } else if FirstMatch(s, rest) != Default {
        var n :| FiresFirst(s, rest, n);
        assert FiresFirst(s, rules, n + 1);
      }
      forall n | FiresFirst(s, rules, n) && n > 0
        ensures FiresFirst(s, rest, n - 1)
      {}
    }
  }

  /** A rule that fires bounds the winner: the result is the pair of a rule
      no later than it, and that rule is the earliest one that fires. */
  lemma FiringRuleBoundsWinner(s: string, rules: seq<Rule>, k: int)
    requires forall n :: 0 <= n < |rules| ==> rules[n].title != UnrecognizableDoc
    requires 0 <= k < |rules| && Search(s, rules[k].pattern)
    ensures exists m :: 0 <= m <= k && FiresFirst(s, rules, m)
                        && FirstMatch(s, rules) == Placement(rules[m].checklist, rules[m].title)
  {
    FirstMatchSpec(s, rules);
    var m :| FiresFirst(s, rules, m);
  }

  /** Shape of the table: no rule assigns the default, the initial checklist
      goes with the personal-info title only, and every title is used once. */
  lemma RulesShape()
    ensures |Rules| == 11
    ensures forall n :: 0 <= n < |Rules| ==> Rules[n].title != UnrecognizableDoc
    ensures InitialOnlyForPersonalInfo(Rules)
    ensures forall n, m :: 0 <= n < m < |Rules| ==> Rules[n].title != Rules[m].title
  {
  }

  /** The table's entries, in order. */
  lemma RulesTable()
    ensures |Rules| == 11
    ensures Rules[0] == Rule(Initial, PersonalInfo, IdPattern)
    ensures Rules[1] == Rule(Additional, BankStatements, BankPattern)
    ensures Rules[2] == Rule(Additional, VehicleInformation, VehiclePattern)
    ensures Rules[3] == Rule(Additional, Income, IncomePattern)
    ensures Rules[4] == Rule(Additional, TaxReturns, TaxPattern)
    ensures Rules[5] == Rule(Additional, Lawsuits, LawsuitPattern)
    ensures Rules[6] == Rule(Additional, Lease, LeasePattern)
    ensures Rules[7] == Rule(Additional, CreditCard, CardPattern)
    ensures Rules[8] == Rule(Additional, Utility, UtilityPattern)
    ensures Rules[9] == Rule(Additional, CreditCounseling, CounselingPattern)
    ensures Rules[10] == Rule(Additional, MortgageHoa, MortgagePattern)
  {
  }

  /** First match wins: the result is the default exactly when no rule fires,
      and otherwise carries the title of rule `k` exactly when rule `k` is the
      earliest rule that fires. */
  lemma FirstMatchWins(name: Option<string>)
    ensures var r := ClassifyForChecklist(name); var s := Normalize(name);
            && (r == Default <==> forall k :: 0 <= k < |Rules| ==> !Search(s, Rules[k].pattern))
            && forall k :: 0 <= k < |Rules| ==>
                 (r.title == Rules[k].title <==> FiresFirst(s, Rules, k))
  {
    RulesShape();
    var s := Normalize(name);
    FirstMatchSpec(s, Rules);
    forall k | 0 <= k < |Rules| && ClassifyForChecklist(name).title == Rules[k].title
      ensures FiresFirst(s, Rules, k)
    {
      var n :| FiresFirst(s, Rules, n);
      assert Rules[n].title == Rules[k].title;
    }
  }
}

=== FILE: classify_facts.dfy ===
/**
 Properties of the checklist classifier: what each early rule recognises,
 which rule wins when several match, and the defaults.
 */
module ClassifyFacts {
  import opened Text
  import opened Pattern
  import opened Classify

  // ---- the identity-document rule ----

  const IdWords: seq<string> := ["id", "dl", "ss", "passport"]

  /** `s[i..j]` is a standalone identity token: one of `IdWords`, or `pass`,
      any whitespace, `port`, with no word character on either side. */
  ghost predicate IdTokenAt(s: string, i: int, j: int)
    requires 0 <= i <= j <= |s|
  {
    && AtBoundary(s, i)
    && AtBoundary(s, j)
    && (|| s[i..j] in IdWords
        || (i + 8 <= j && s[i..i + 4] == "pass" && AllSpace(s, i + 4, j - 4)
            && s[j - 4..j] == "port"))
  }

  ghost predicate HasIdToken(s: string) {
    exists i, j :: 0 <= i <= j <= |s| && IdTokenAt(s, i, j)
  }

  lemma WordSpans(s: string, i: int, w: string, j: int)
    requires 0 <= i <= |s|
    ensures Spans(s, i, Word(w), j) <==>
            AtBoundary(s, i) && OccursAt(s, i, w) && j == i + |w| && AtBoundary(s, j)
  {
    assert Word(w) == [Boundary] + ([Lit(w)] + [Boundary]);
    SpansBoundary(s, i, [Lit(w)] + [Boundary], j);
    SpansLit(s, i, w, [Boundary], j);
    if OccursAt(s, i, w) {
      assert [Boundary] == [Boundary] + [];
      SpansBoundary(s, i + |w|, [], j);
    }
  }

  const PassPort: Alt := [Boundary, Lit("pass"), SpaceRun(0), Lit("port"), Boundary]

  /** `port\b` spans from `k` to `j`. */
  lemma PortSpans(s: string, k: int, j: int)
    requires 0 <= k <= |s|
    ensures Spans(s, k, [Lit("port")] + ([Boundary] + []), j) <==>
            OccursAt(s, k, "port") && j == k + 4 && AtBoundary(s, j)
  {
    SpansLit(s, k, "port", [Boundary] + [], j);
    if OccursAt(s, k, "port") {
      SpansBoundary(s, k + 4, [], j);
    }
  }

  /** `\s*port\b` spans from `k` to `j`. */
  lemma RunPortSpans(s: string, k: int, j: int)
    requires 0 <= k <= |s|
    ensures Spans(s, k, [SpaceRun(0)] + ([Lit("port")] + ([Boundary] + [])), j) <==>
            k + 4 <= j <= |s| && AllSpace(s, k, j - 4) && OccursAt(s, j - 4, "port")
            && AtBoundary(s, j)
  {
    var tail: Alt := [Lit("port")] + ([Boundary] + []);
    SpansSpaceRun(s, k, 0, tail, j);
    if Spans(s, k, [SpaceRun(0)] + tail, j) {
      var m :| k <= m <= |s| && AllSpace(s, k, m) && Spans(s, m, tail, j);
      PortSpans(s, m, j);
    }
    if k + 4 <= j <= |s| && AllSpace(s, k, j - 4) && OccursAt(s, j - 4, "port") && AtBoundary(s, j) {
      PortSpans(s, j - 4, j);
    }
  }

  lemma PassPortSpans(s: string, i: int, j: int)
    requires 0 <= i <= |s|
    ensures Spans(s, i, PassPort, j) <==>
            && AtBoundary(s, i) && OccursAt(s, i, "pass")
            && i + 8 <= j <= |s| && AllSpace(s, i + 4, j - 4) && OccursAt(s, j - 4, "port")
            && AtBoundary(s, j)
  {
    var run: Alt := [SpaceRun(0)] + ([Lit("port")] + ([Boundary] + []));
    assert PassPort == [Boundary] + ([Lit("pass")] + run);
    SpansBoundary(s, i, [Lit("pass")] + run, j);
    SpansLit(s, i, "pass", run, j);
    if OccursAt(s, i, "pass") {
      RunPortSpans(s, i + 4, j);
    }
  }

  /** The identity alternatives: the four whole words, then `pass\s*port`. */
  lemma IdPatternShape()
    ensures |IdPattern| == 5 && IdPattern[4] == PassPort
    ensures forall n :: 0 <= n < 4 ==> IdPattern[n] == Word(IdWords[n])
  {
  }

  /** Each identity alternative spans only an identity token. */
  lemma IdAltSpansToken(s: string, n: int, i: int, j: int)
    requires 0 <= n < |IdPattern| && 0 <= i <= |s| && Spans(s, i, IdPattern[n], j)
    ensures i <= j <= |s| && IdTokenAt(s, i, j)
  {
    IdPatternShape();
    if n < 4 {
      WordSpans(s, i, IdWords[n], j);
      assert s[i..j] == IdWords[n];
    } else {
      PassPortSpans(s, i, j);
    }
  }

  /** Every identity token is spanned by an identity alternative. */
  lemma IdTokenFound(s: string, i: int, j: int)
    requires 0 <= i <= j <= |s| && IdTokenAt(s, i, j)
    ensures Search(s, IdPattern)
  {
    IdPatternShape();
    if s[i..j] in IdWords {
      var n :| 0 <= n < |IdWords| && IdWords[n] == s[i..j];
      WordSpans(s, i, IdWords[n], j);
      SearchFinds(s, IdPattern, n, i, j);
    } else {
      PassPortSpans(s, i, j);
      SearchFinds(s, IdPattern, 4, i, j);
    }
  }

  /** The identity rule fires exactly when the title holds a standalone
      identity token. */
  lemma IdRuleIsStandaloneToken(s: string)
    ensures Search(s, IdPattern) <==> HasIdToken(s)
  {
    SearchCorrect(s, IdPattern);
    if Hits(s, IdPattern) {
      var n :| 0 <= n < |IdPattern| && Occurs(s, IdPattern[n]);
      var i :| 0 <= i <= |s| && MatchesAt(s, i, IdPattern[n]);
      var j :| Spans(s, i, IdPattern[n], j);
      IdAltSpansToken(s, n, i, j);
    }
    if HasIdToken(s) {
      var i, j :| 0 <= i <= j <= |s| && IdTokenAt(s, i, j);
      IdTokenFound(s, i, j);
    }
  }

  /** Identity precedence: the result is the personal-info pair exactly when the
      lower-cased title holds a standalone identity token, whatever else it says. */
  lemma PersonalInfoIffIdToken(name: Option<string>)
    ensures ClassifyForChecklist(name) == Placement(Initial, PersonalInfo)
            <==> HasIdToken(Normalize(name))
  {
    var s := Normalize(name);
    RulesTable();
    FirstMatchWins(name);
    IdRuleIsStandaloneToken(s);
    if HasIdToken(s) {
      assert FiresFirst(s, Rules, 0);
    }
  }

  /** "SS card and Chase statement" mentions a bank and a statement, but the
      standalone "ss" puts it on the initial checklist. */
  lemma SsCardBeatsStatement()
    ensures ClassifyForChecklist(Some("SS card and Chase statement"))
            == Placement(Initial, PersonalInfo)
  {
    var s := Normalize(Some("SS card and Chase statement"));
    assert s[0] == 's' && s[1] == 's' && s[2] == ' ';
    assert s[0..2] == "ss";
    assert IdTokenAt(s, 0, 2);
    PersonalInfoIffIdToken(Some("SS card and Chase statement"));
  }

  /** "ss" followed by a further word character is not an identity token. */
  lemma SsInsideWordIsNoToken()
    ensures !Search("ssn", IdPattern)
  {
  }

  // ---- the bank rule and its overlap with the card rule ----

  /** A literal alternative occurring anywhere makes its pattern fire. */
  lemma LitFires(s: string, words: seq<string>, n: int)
    requires 0 <= n < |words| && Contains(s, words[n])
    ensures Search(s, Lits(words))
  {
    var w := words[n];
    var i :| 0 <= i <= |s| && OccursAt(s, i, w);
    assert Lits(words)[n] == [Lit(w)] + [];
    SpansLit(s, i, w, [], i + |w|);
    SearchFinds(s, Lits(words), n, i, i + |w|);
  }

  /** A pattern fires when a part of it fires. */
  lemma SearchConcat(s: string, p: seq<Alt>, q: seq<Alt>)
    ensures Search(s, p + q) <==> Search(s, p) || Search(s, q)
  {
    SearchCorrect(s, p);
    SearchCorrect(s, q);
    SearchCorrect(s, p + q);
    if Hits(s, p + q) {
      var n :| 0 <= n < |p + q| && Occurs(s, (p + q)[n]);
      if n < |p| {
        assert Occurs(s, p[n]);
      } else {
        assert Occurs(s, q[n - |p|]);
      }
    }
    if Hits(s, p) {
      var n :| 0 <= n < |p| && Occurs(s, p[n]);
      assert Occurs(s, (p + q)[n]);
    }
    if Hits(s, q) {
      var n :| 0 <= n < |q| && Occurs(s, q[n]);
      assert Occurs(s, (p + q)[n + |p|]);
    }
  }

  /** `a ?b`: `a`, an optional space, then `b`. */
  function OptSpaced(a: string, b: string): (r: Alt) {
    [Lit(a), OptChar(' '), Lit(b)]
  }

  /** `a` followed by `b`, with one space between them or none, occurs in `s`. */
  ghost predicate MentionsPair(s: string, a: string, b: string) {
    Contains(s, a + (" " + b)) || Contains(s, a + b)
  }

  /** "capital one" with or without the space. */
  ghost predicate MentionsCapitalOne(s: string) {
    MentionsPair(s, "capital", "one")
  }

  /** "fifth third" with or without the space. */
  ghost predicate MentionsFifthThird(s: string) {
    MentionsPair(s, "fifth", "third")
  }

  /** `a ?b` spans `s[i..j]` exactly when "a b" or "ab" occurs at `i` and ends at `j`. */
  lemma PairSpans(s: string, i: int, a: string, b: string, j: int)
    requires 0 <= i <= |s|
    ensures Spans(s, i, OptSpaced(a, b), j) <==>
            || (OccursAt(s, i, a + (" " + b)) && j == i + |a| + 1 + |b|)
            || (OccursAt(s, i, a + b) && j == i + |a| + |b|)
  {
    var tail: Alt := [Lit(b)] + [];
    assert OptSpaced(a, b) == [Lit(a)] + ([OptChar(' ')] + tail);
    SpansLit(s, i, a, [OptChar(' ')] + tail, j);
    OccursAtConcat(s, i, a, " " + b);
    OccursAtConcat(s, i, a, b);
    if OccursAt(s, i, a) {
      var k := i + |a|;
      SpansOptChar(s, k, ' ', tail, j);
      SpansLit(s, k, b, [], j);
      if OccursAt(s, k, b) {
        SpansEmpty(s, k + |b|, j);
      }
      OccursAtConcat(s, k, " ", b);
      if k < |s| {
        assert OccursAt(s, k, " ") <==> s[k] == ' ' by {
          assert s[k..k + 1] == [s[k]];
        }
        SpansLit(s, k + 1, b, [], j);
        if OccursAt(s, k + 1, b) {
          SpansEmpty(s, k + 1 + |b|, j);
        }
      }
    }
  }

  /** `a ?b` occurs in `s` exactly when "a b" or "ab" does. */
  lemma PairOccurs(s: string, a: string, b: string)
    ensures Occurs(s, OptSpaced(a, b)) <==> MentionsPair(s, a, b)
  {
    var alt := OptSpaced(a, b);
    if Occurs(s, alt) {
      var i :| 0 <= i <= |s| && MatchesAt(s, i, alt);
      var j :| Spans(s, i, alt, j);
      PairSpans(s, i, a, b, j);
    }
    if Contains(s, a + (" " + b)) {
      var i :| 0 <= i <= |s| && OccursAt(s, i, a + (" " + b));
      PairSpans(s, i, a, b, i + |a| + 1 + |b|);
      assert MatchesAt(s, i, alt);
    } else if Contains(s, a + b) {
      var i :| 0 <= i <= |s| && OccursAt(s, i, a + b);
      PairSpans(s, i, a, b, i + |a| + |b|);
      assert MatchesAt(s, i, alt);
    }
  }

  /** An `a ?b` alternative fires its pattern when "a b" or "ab" occurs. */
  lemma PairFires(s: string, pat: seq<Alt>, n: int, a: string, b: string)
    requires 0 <= n < |pat| && pat[n] == OptSpaced(a, b) && MentionsPair(s, a, b)
    ensures Search(s, pat)
  {
    PairOccurs(s, a, b);
    var i :| 0 <= i <= |s| && MatchesAt(s, i, pat[n]);
    var j :| Spans(s, i, pat[n], j);
    SearchFinds(s, pat, n, i, j);
  }

  /** A pattern of literal words fires exactly when one of the words occurs. */
  lemma LitsHit(s: string, words: seq<string>)
    ensures Search(s, Lits(words)) <==> exists w :: w in words && Contains(s, w)
  {
    var pat := Lits(words);
    SearchCorrect(s, pat);
    if Hits(s, pat) {
      var n :| 0 <= n < |pat| && Occurs(s, pat[n]);
      var i :| 0 <= i <= |s| && MatchesAt(s, i, pat[n]);
      var j :| Spans(s, i, pat[n], j);
      assert pat[n] == [Lit(words[n])] + [];
      SpansLit(s, i, words[n], [], j);
      assert words[n] in words && Contains(s, words[n]);
    }
    if exists w :: w in words && Contains(s, w) {
      var w :| w in words && Contains(s, w);
      var n :| 0 <= n < |words| && words[n] == w;
      LitFires(s, words, n);
    }
  }

  /** The two spaced provider names fire exactly when one of them is mentioned. */
  lemma SpacedProvidersHit(s: string)
    ensures Search(s, [CapitalOne, FifthThird]) <==> MentionsCapitalOne(s) || MentionsFifthThird(s)
  {
    var pat := [CapitalOne, FifthThird];
    assert pat[0] == OptSpaced("capital", "one") && pat[1] == OptSpaced("fifth", "third");
    SearchCorrect(s, pat);
    PairOccurs(s, "capital", "one");
    PairOccurs(s, "fifth", "third");
    assert Hits(s, pat) <==> Occurs(s, pat[0]) || Occurs(s, pat[1]);
  }

  /** The tests of the bank rule: a provider name, "statement" or "bank"
      anywhere, or "capital ?one" or "fifth ?third". */
  ghost predicate NamesBank(s: string) {
    || (exists w :: w in BankWords && Contains(s, w))
    || MentionsCapitalOne(s)
    || MentionsFifthThird(s)
  }

  /** The bank pattern fires exactly when one of its tests holds. */
  lemma BankRuleIff(s: string)
    ensures Search(s, BankPattern) <==> NamesBank(s)
  {
    SearchConcat(s, Lits(BankWords), [CapitalOne, FifthThird]);
    LitsHit(s, BankWords);
    SpacedProvidersHit(s);
  }

  /** A title goes to the bank-statements bucket exactly when it holds no
      standalone identity token and names a provider, a statement or a bank. */
  lemma BankWithoutIdToken(name: Option<string>)
    ensures ClassifyForChecklist(name).title == BankStatements
            <==> !HasIdToken(Normalize(name)) && NamesBank(Normalize(name))
  {
    var s := Normalize(name);
    RulesHead();
    FirstMatchWins(name);
    IdRuleIsStandaloneToken(s);
    BankRuleIff(s);
    assert FiresFirst(s, Rules, 1) <==> !Search(s, Rules[0].pattern) && Search(s, Rules[1].pattern);
  }

  /** The names the bank and card rules share. */
  const SharedNames: seq<string> := ["discover", "synchrony", "comenity"]

  lemma SharedNamesListed(w: string)
    requires w in SharedNames
    ensures w in BankWords && w in CardWords
  {
  }

  lemma CardWordFires(s: string, w: string)
    requires w in CardWords && Contains(s, w)
    ensures Search(s, CardPattern)
  {
    var n :| 0 <= n < |CardWords| && CardWords[n] == w;
    LitFires(s, CardWords, n);
    SearchConcat(s, Lits(CardWords), [[Lit("credit"), SpaceRun(0), Lit("card")], CapitalOne, CardSuffix]);
  }

  /** A shared name, or "capital one", makes both the bank and the card rule fire. */
  lemma SharedNameFiresBoth(s: string)
    requires (exists w :: w in SharedNames && Contains(s, w)) || MentionsCapitalOne(s)
    ensures Search(s, BankPattern) && Search(s, CardPattern)
  {
    if MentionsCapitalOne(s) {
      var cardTail := [[Lit("credit"), SpaceRun(0), Lit("card")], CapitalOne, CardSuffix];
      SearchConcat(s, Lits(CardWords), cardTail);
      SearchConcat(s, Lits(BankWords), [CapitalOne, FifthThird]);
      PairFires(s, [CapitalOne, FifthThird], 0, "capital", "one");
      PairFires(s, cardTail, 1, "capital", "one");
    } else {
      var w :| w in SharedNames && Contains(s, w);
      SharedNamesListed(w);
      BankRuleIff(s);
      CardWordFires(s, w);
    }
  }

  /** The first two rules of the table. */
  lemma RulesHead()
    ensures |Rules| == 11
    ensures Rules[0].title == PersonalInfo && Rules[1].title == BankStatements
    ensures Rules[1].pattern == BankPattern
  {
  }

  /** "discover", "synchrony", "comenity" and "capital one" are both provider
      and card names: the card rule fires on them too, yet the bank rule comes
      first, so such a title never lands in the credit-card bucket. */
  lemma SharedNamesNeverCard(name: Option<string>)
    requires var s := Normalize(name);
             (exists w :: w in SharedNames && Contains(s, w)) || MentionsCapitalOne(s)
    ensures Search(Normalize(name), CardPattern)
    ensures ClassifyForChecklist(name).title in {PersonalInfo, BankStatements}
  {
    var s := Normalize(name);
    SharedNameFiresBoth(s);
    RulesShape();
    RulesHead();
    FiringRuleBoundsWinner(s, Rules, 1);
  }

  // ---- the dash-and-four-digits card suffix ----

  /** `-\d{4}\b` matches at `i` exactly when a dash and four digits start there
      and no word character follows them. */
  lemma CardSuffixAt(s: string, i: int)
    requires 0 <= i <= |s|
    ensures MatchesAt(s, i, CardSuffix) <==>
            && i + 5 <= |s| && s[i] == '-'
            && IsDigit(s[i + 1]) && IsDigit(s[i + 2]) && IsDigit(s[i + 3]) && IsDigit(s[i + 4])
            && (i + 5 == |s| || !IsWordChar(s[i + 5]))
  {
    var a := CardSuffix;
    assert a[1..][1..][1..][1..][1..] == [Boundary] && a[1..][1..][1..][1..][1..][1..] == [];
    if MatchesAt(s, i, a) {
      var j :| Spans(s, i, a, j);
      assert s[i..i + 1] == "-";
    }
    if && i + 5 <= |s| && s[i] == '-'
       && IsDigit(s[i + 1]) && IsDigit(s[i + 2]) && IsDigit(s[i + 3]) && IsDigit(s[i + 4])
       && (i + 5 == |s| || !IsWordChar(s[i + 5]))
    {
      assert s[i..i + 1] == "-";
      assert Spans(s, i, a, i + 5);
    }
  }

  /** A dash followed by five digits is no card suffix at that dash. */
  lemma FiveDigitsAreNoSuffix(s: string, i: int)
    requires 0 <= i && i + 6 <= |s| && s[i] == '-'
    requires forall m :: i + 1 <= m < i + 6 ==> IsDigit(s[m])
    ensures !MatchesAt(s, i, CardSuffix)
  {
    CardSuffixAt(s, i);
  }

  /** When none of the seven earlier rules fires, a dash with exactly four digits
      puts the title in the credit-card bucket. */
  lemma DashFourDigitsIsCard(name: Option<string>, i: int)
    requires var s := Normalize(name);
             && 0 <= i && i + 5 <= |s| && s[i] == '-'
             && (forall m :: i + 1 <= m < i + 5 ==> IsDigit(s[m]))
             && (i + 5 == |s| || !IsWordChar(s[i + 5]))
    requires forall k :: 0 <= k < 7 ==> !Search(Normalize(name), Rules[k].pattern)
    ensures ClassifyForChecklist(name) == Placement(Additional, CreditCard)
  {
    var s := Normalize(name);
    RulesTable();
    FirstMatchWins(name);
    CardSuffixAt(s, i);
    var j :| Spans(s, i, CardSuffix, j);
    var tail := [[Lit("credit"), SpaceRun(0), Lit("card")], CapitalOne, CardSuffix];
    SearchFinds(s, tail, 2, i, j);
    SearchConcat(s, Lits(CardWords), tail);
    assert FiresFirst(s, Rules, 7);
  }

  // ---- case, absence and emptiness ----

  /** The result depends only on the lower-cased title. */
  lemma CaseInsensitive(s: string)
    ensures ClassifyForChecklist(Some(s)) == ClassifyForChecklist(Some(Lower(s)))
  {
    LowerIdempotent(s);
  }

  lemma LitsNeedText(words: seq<string>)
    requires forall n :: 0 <= n < |words| ==> |words[n]| > 0
    ensures NeedsText(Lits(words))
  {
    forall n | 0 <= n < |words| ensures MinWidth(Lits(words)[n]) > 0 {
      assert Lits(words)[n][1..] == [];
    }
  }

  lemma NeedsTextConcat(p: seq<Alt>, q: seq<Alt>)
    requires NeedsText(p) && NeedsText(q)
    ensures NeedsText(p + q)
  {
    forall n | 0 <= n < |p + q| ensures MinWidth((p + q)[n]) > 0 {
      if n >= |p| {
        assert (p + q)[n] == q[n - |p|];
      }
    }
  }

  lemma EarlyPatternsNeedText()
    ensures NeedsText(IdPattern) && NeedsText(BankPattern) && NeedsText(VehiclePattern)
    ensures NeedsText(IncomePattern) && NeedsText(TaxPattern)
  {
    LitsNeedText(BankWords);
    NeedsTextConcat(Lits(BankWords), [CapitalOne, FifthThird]);
    LitsNeedText(["vehicle", "auto", "vin", "title", "registration"]);
    NeedsTextConcat(Lits(["vehicle", "auto", "vin", "title", "registration"]),
                    [[Lit("insurance"), SpaceRun(0), Lit("card")]]);
    LitsNeedText(["paystub", "payroll", "wage", "income"]);
    NeedsTextConcat([[Lit("pay"), SpaceRun(0), Lit("stub")]],
                    Lits(["paystub", "payroll", "wage", "income"]));
    LitsNeedText(["tax return"]);
    NeedsTextConcat([[Lit("tax"), SpaceRun(0), Lit("return")],
                     [Lit("return"), SpaceRun(0), Lit("transcript")],
                     [Boundary, Lit("20"), Digit, Digit, SpaceRun(1), Lit("tax")],
                     [Boundary, Lit("tax liability")]],
                    Lits(["tax return"]));
  }

  lemma LatePatternsNeedText()
    ensures NeedsText(LawsuitPattern) && NeedsText(LeasePattern) && NeedsText(CardPattern)
    ensures NeedsText(UtilityPattern) && NeedsText(CounselingPattern)
    ensures NeedsText(MortgagePattern)
  {
    LitsNeedText(["lawsuit", "summons", "complaint", "garnish", "judgment"]);
    NeedsTextConcat(Lits(["lawsuit", "summons", "complaint", "garnish", "judgment"]),
                    [[Lit("v."), Space], [Lit("vs."), Space]]);
    LitsNeedText(["lease", "rental", "rent", "timeshare"]);
    LitsNeedText(CardWords);
    NeedsTextConcat(Lits(CardWords),
                    [[Lit("credit"), SpaceRun(0), Lit("card")], CapitalOne, CardSuffix]);
    LitsNeedText(["utility", "electric", "water", "internet", "phone", "gas", "sewer", "trash",
                  "cable", "bill", "utility"]);
    LitsNeedText(["credit counseling", "certificate of counseling"]);
    LitsNeedText(["mortgage", "hoa", "homeowner", "home owners", "association"]);
  }

  /** Every alternative of every rule consumes at least one character. */
  lemma RulesNeedText()
    ensures forall k :: 0 <= k < |Rules| ==> NeedsText(Rules[k].pattern)
  {
    EarlyPatternsNeedText();
    LatePatternsNeedText();
    RulesTable();
  }

  /** A missing title is read as the empty one, and the empty title matches no
      rule: both land in the default bucket. */
  lemma EmptyTitleIsDefault()
    ensures ClassifyForChecklist(None) == Default
    ensures ClassifyForChecklist(Some("")) == Default
  {
    RulesNeedText();
    FirstMatchWins(None);
    FirstMatchWins(Some(""));
    forall k | 0 <= k < |Rules| ensures !Search("", Rules[k].pattern) {
      NoHitInEmpty(Rules[k].pattern);
    }
  }
}

=== FILE: documents.dfy ===
/**
 Adding a checklist item and uploading a file to it, as a ladder of lookups
 on an abstract page: each step either finds what it needs, falls back to a
 second lookup, or stops with a fixed error. The page records, for every
 lookup the procedure makes, whether it finds anything at the moment it is
 made.
 */
module Documents {
  import opened Text
  import opened Toggle

  /** The lookups made inside the panel: the open dialog, or the page itself
      when no dialog is open. */
  datatype Scope = Scope(
    nameFieldBySelector: bool,  // the name, placeholder, text-input and textarea selectors
    nameFieldByRole: bool,      // the `textbox` role
    fillOk: bool,               // `fill` accepts the title
    required: Site,             // lookups for the "Required" switch
    visibility: Site,           // lookups for the team-only visibility switch
    addDocumentByRole: bool)    // a button named "Add document"

  /** The three lookups for an "Upload" control: the button role, a button
      with that text, and a test id containing "upload". */
  datatype UploadLookup = UploadLookup(byRole: bool, byText: bool, byTestId: bool)

  datatype Page = Page(
    addItemByRole: bool,            // a button named "Add an item"
    addItemByText: bool,            // the text-based fallback selectors
    dialog: Option<Scope>,          // the dialog or drawer, when one is open
    body: Scope,                    // the same lookups on the whole page
    addDocumentByText: bool,        // page-wide "Add document" button text
    uploadAtOnce: UploadLookup,     // right after "Add document"
    rowContainer: Read<bool>,       // the row helper: a row, none, or an error
    rowByText: bool,                // text node with the title, then its block ancestor
    openByRole: bool,               // in the row: a button named "Open"
    openByText: bool,               // in the row: a button with text "Open"
    uploadAfterOpen: UploadLookup,  // after opening the row
    chooserOpens: bool,             // a file chooser appears within the timeout
    fileInput: bool,                // a direct `input[type=file]` on the page
    processingFails: bool)          // the final wait raises

  datatype Which = Required | Visibility

  /** What each switch is set to: "Required" off, team-only visibility on. */
  function Want(w: Which): (r: bool)
    ensures r <==> w == Visibility
  {
    match w
    case Required => false
    case Visibility => true
  }

  datatype Failure =
    | NoAddItemButton
    | NoNameField
    | ToggleUnreadable(which: Which)
    | NoAddDocumentButton
    | NoRow
    | NoOpenButton
    | NoUploadButton
    | NoFileInput

  /** The visible effects, in order. */
  datatype Event =
    | ClickAddItem
    | EnterTitle(title: string, filled: bool)  // `fill`, or select-all and type when `fill` fails
    | SetSwitch(which: Which, want: bool, result: ToggleResult)
    | ClickAddDocument
    | ClickOpen
    | ClickUpload
    | ChooseFile(upload: string)
    | InputFile(upload: string)
    | AwaitProcessing

  /** What the procedure did, and the error it stopped with, if any. */
  datatype Run = Run(log: seq<Event>, failure: Option<Failure>)

  function Panel(page: Page): (r: Scope) {
    if page.dialog.Some? then page.dialog.value else page.body
  }

  function SwitchSite(page: Page, w: Which): (r: Site) {
    match w
    case Required => Panel(page).required
    case Visibility => Panel(page).visibility
  }

  predicate FindsUpload(u: UploadLookup) {
    u.byRole || u.byText || u.byTestId
  }

  /** An error from the row helper is dropped and counts as no row. */
  predicate RowFound(page: Page) {
    page.rowContainer == Value(true) || page.rowByText
  }

  /** Picking the file: through the chooser, or, when none appears in time,
      through a file input; the final wait's errors are dropped. */
  function SendFile(page: Page, log: seq<Event>, upload: string): (r: Run)
    ensures r.failure.None? <==> page.chooserOpens || page.fileInput
    ensures r.failure.Some? ==> r == Run(log, Some(NoFileInput))
    ensures r.failure.None? ==>
              && |r.log| == |log| + 2
              && r.log[|log|] == (if page.chooserOpens then ChooseFile(upload) else InputFile(upload))
              && r.log[|log| + 1] == AwaitProcessing && r.log[..|log|] == log
  {
    if page.chooserOpens then Run(log + [ChooseFile(upload), AwaitProcessing], None)
    else if page.fileInput then Run(log + [InputFile(upload), AwaitProcessing], None)
    else Run(log, Some(NoFileInput))
  }

  /** After "Add document": the Upload control at once, or through the row's
      Open button. */
  function ReachUpload(page: Page, log: seq<Event>, upload: string): (r: Run)
  {
    if FindsUpload(page.uploadAtOnce) then
      var r := SendFile(page, log + [ClickUpload], upload);
      assert r.log[|log|] == ClickUpload;
      r
    else if !RowFound(page) then Run(log, Some(NoRow))
    else if !(page.openByRole || page.openByText) then Run(log, Some(NoOpenButton))
    else if !FindsUpload(page.uploadAfterOpen) then
      assert (log + [ClickOpen])[|log|..] == [ClickOpen];
      Run(log + [ClickOpen], Some(NoUploadButton))
    else
      var r := SendFile(page, log + [ClickOpen, ClickUpload], upload);
      assert r.log[|log| + 1] == ClickUpload;
      r
  }

  /** `add_document_and_upload(page, title, upload)`. */
  function AddDocumentAndUpload(page: Page, title: string, upload: string): (r: Run)
    ensures r.failure.None? ==> |r.log| > 0 && r.log[|r.log| - 1] == AwaitProcessing
    ensures |r.log| >= 1 ==> r.log[0] == ClickAddItem
    ensures |r.log| >= 2 ==> r.log[1] == EnterTitle(title, Panel(page).fillOk)
  {
    if !(page.addItemByRole || page.addItemByText) then Run([], Some(NoAddItemButton))
    else
      var panel := Panel(page);
      if !(panel.nameFieldBySelector || panel.nameFieldByRole) then Run([ClickAddItem], Some(NoNameField))
      else
        var named := [ClickAddItem, EnterTitle(title, panel.fillOk)];
        match SetToggle(panel.required, Want(Required))
        case Throws => Run(named, Some(ToggleUnreadable(Required)))
        case Value(t1) =>
          var log1 := named + [SetSwitch(Required, Want(Required), t1)];
          match SetToggle(panel.visibility, Want(Visibility))
          case Throws => Run(log1, Some(ToggleUnreadable(Visibility)))
          case Value(t2) =>
            var log2 := log1 + [SetSwitch(Visibility, Want(Visibility), t2)];
            if !(panel.addDocumentByRole || page.addDocumentByText) then Run(log2, Some(NoAddDocumentButton))
            else ReachUpload(page, log2 + [ClickAddDocument], upload)
  }
}

=== FILE: documents_facts.dfy ===
/**
 Properties of the add-and-upload procedure: the order in which missing
 controls stop it, the order in which the two switches are set, the file
 chooser fallback, and what does not influence the outcome.
 */
module DocumentsFacts {
  import opened Text
  import opened Toggle
  import opened Documents

  /** The order in which the procedure checks for each failure. */
  function Rank(f: Failure): (r: nat)
    ensures r <= 8
  {
    match f
    case NoAddItemButton => 0
    case NoNameField => 1
    case ToggleUnreadable(w) => if w == Required then 2 else 3
    case NoAddDocumentButton => 4
    case NoRow => 5
    case NoOpenButton => 6
    case NoUploadButton => 7
    case NoFileInput => 8
  }

  /** The condition under which each failure would occur if the procedure got
      that far: the controls its step needs are all absent, or the switch's
      state cannot be read. Row, Open and the second Upload lookup are needed
      only when no Upload control shows right after "Add document". */
  predicate Missing(page: Page, f: Failure) {
    match f
    case NoAddItemButton => !page.addItemByRole && !page.addItemByText
    case NoNameField => !Panel(page).nameFieldBySelector && !Panel(page).nameFieldByRole
    case ToggleUnreadable(w) => SetToggle(SwitchSite(page, w), Want(w)).Throws?
    case NoAddDocumentButton => !Panel(page).addDocumentByRole && !page.addDocumentByText
    case NoRow => !FindsUpload(page.uploadAtOnce) && !RowFound(page)
    case NoOpenButton => !FindsUpload(page.uploadAtOnce) && !page.openByRole && !page.openByText
    case NoUploadButton => !FindsUpload(page.uploadAtOnce) && !FindsUpload(page.uploadAfterOpen)
    case NoFileInput => !page.chooserOpens && !page.fileInput
  }

  /** The run's failure is the first failure of the ladder whose condition
      holds. */
  lemma FailureIsFirstMissing(page: Page, title: string, upload: string)
    ensures AddDocumentAndUpload(page, title, upload).failure ==
            if Missing(page, NoAddItemButton) then Some(NoAddItemButton)
            else if Missing(page, NoNameField) then Some(NoNameField)
            else if Missing(page, ToggleUnreadable(Required)) then Some(ToggleUnreadable(Required))
            else if Missing(page, ToggleUnreadable(Visibility)) then Some(ToggleUnreadable(Visibility))
            else if Missing(page, NoAddDocumentButton) then Some(NoAddDocumentButton)
            else if Missing(page, NoRow) then Some(NoRow)
            else if Missing(page, NoOpenButton) then Some(NoOpenButton)
            else if Missing(page, NoUploadButton) then Some(NoUploadButton)
            else if Missing(page, NoFileInput) then Some(NoFileInput)
            else None
  {
  }

  /** The procedure stops with failure `f` exactly when `f`'s condition holds
      and no earlier failure's condition does, and succeeds exactly when no
      failure's condition holds. */
  lemma FailureLadder(page: Page, title: string, upload: string)
    ensures var r := AddDocumentAndUpload(page, title, upload);
            forall f :: r.failure == Some(f) <==>
                          Missing(page, f) && forall g :: Rank(g) < Rank(f) ==> !Missing(page, g)
    ensures AddDocumentAndUpload(page, title, upload).failure.None? <==>
            forall f :: !Missing(page, f)
  {
    var r := AddDocumentAndUpload(page, title, upload);
    FailureIsFirstMissing(page, title, upload);
    forall f ensures r.failure == Some(f) <==>
                       Missing(page, f) && forall g :: Rank(g) < Rank(f) ==> !Missing(page, g)
    {
      if r.failure == Some(f) {
        forall g | Rank(g) < Rank(f) ensures !Missing(page, g) {
          match g
          case ToggleUnreadable(w) => assert w == Required || w == Visibility;
          case _ =>
        }
      }
    }
    if r.failure.None? {
      forall f ensures !Missing(page, f) {
        match f
        case ToggleUnreadable(w) => assert w == Required || w == Visibility;
        case _ =>
      }
    }
  }

  /** Each failure has its own place on the ladder. */
  lemma RanksDistinct()
    ensures forall f, g :: Rank(f) == Rank(g) ==> f == g
  {
  }

  /** A missing "Add an item" control stops the procedure before anything is
      touched, whatever else the page holds. */
  lemma NoAddItemStopsFirst(page: Page, title: string, upload: string)
    requires !page.addItemByRole && !page.addItemByText
    ensures AddDocumentAndUpload(page, title, upload) == Run([], Some(NoAddItemButton))
  {
  }

  /** Switches that cannot be found never stop the procedure. */
  lemma AbsentSwitchesNeverFail(page: Page, title: string, upload: string, w: Which)
    requires Target(SwitchSite(page, w)).None?
    ensures AddDocumentAndUpload(page, title, upload).failure != Some(ToggleUnreadable(w))
  {
    FailureLadder(page, title, upload);
  }

  /** Once past the switches, the log holds "Required" set to off and then the
      visibility switch set to on, right after the title. */
  lemma SwitchesInOrder(page: Page, title: string, upload: string)
    requires var r := AddDocumentAndUpload(page, title, upload);
             r.failure.None? || Rank(r.failure.value) >= 4
    ensures var r := AddDocumentAndUpload(page, title, upload);
            && |r.log| >= 4
            && r.log[2].SetSwitch? && r.log[2].which == Required && !r.log[2].want
            && r.log[3].SetSwitch? && r.log[3].which == Visibility && r.log[3].want
            && r.log[2].result == SetToggle(Panel(page).required, false).v
            && r.log[3].result == SetToggle(Panel(page).visibility, true).v
  {
  }

  /** When no chooser appears after the Upload click, the file goes through
      the page's file input, and the procedure fails only without one. */
  lemma ChooserFallsBackToFileInput(page: Page, title: string, upload: string)
    requires !page.chooserOpens
    requires ClickUpload in AddDocumentAndUpload(page, title, upload).log
    ensures var r := AddDocumentAndUpload(page, title, upload);
            && (r.failure.None? <==> page.fileInput)
            && (r.failure.Some? ==> r.failure == Some(NoFileInput))
            && (page.fileInput ==> InputFile(upload) in r.log && ChooseFile(upload) !in r.log)
  {
  }

  /** A finished run sends the file exactly once, by the chooser when it
      appears, and only after clicking "Add document" and "Upload". */
  lemma SuccessSendsFileOnce(page: Page, title: string, upload: string)
    requires AddDocumentAndUpload(page, title, upload).failure.None?
    ensures var log := AddDocumentAndUpload(page, title, upload).log;
            && |log| >= 8
            && log[|log| - 2] == (if page.chooserOpens then ChooseFile(upload) else InputFile(upload))
            && log[|log| - 3] == ClickUpload
            && log[4] == ClickAddDocument
            && forall k :: 0 <= k < |log| && (log[k].ChooseFile? || log[k].InputFile?) ==> k == |log| - 2
  {
  }

  /** Errors of the final processing wait are dropped: the run is the same
      whether the wait fails or not, because nothing in the procedure reads
      the wait's outcome (`processingFails` is read by no step). */
  lemma ProcessingErrorsIgnored(page: Page, title: string, upload: string)
    ensures AddDocumentAndUpload(page, title, upload)
            == AddDocumentAndUpload(page.(processingFails := !page.processingFails), title, upload)
  {
  }

  /** With a dialog open, the lookups on the rest of the page's panel play no
      part: only the dialog's name field, switches and button count. */
  lemma DialogScopesLookups(page: Page, other: Scope, title: string, upload: string)
    requires page.dialog.Some?
    ensures AddDocumentAndUpload(page, title, upload)
            == AddDocumentAndUpload(page.(body := other), title, upload)
  {
  }
}

=== FILE: pattern.dfy ===
/**
 The fragment of Python's `re` that the classifier's patterns use: literal
 text, an optional character (`x?`), one whitespace (`\s`), a whitespace run
 (`\s*`, `\s+`), one digit (`\d`) and the word boundary (`\b`). A pattern is
 an alternation of token sequences; `\b(a|b)\b` is written `\ba\b|\bb\b`.

 `Spans` is the declarative meaning (the tokens match exactly `s[i..j]`),
 `MatchFrom`/`SearchFrom`/`Search` the backtracking search `re.search`
 performs, and the lemmas below show the two agree on every input.
 */
module Pattern {
  import opened Text

  datatype Token =
    | Lit(text: string)
    | OptChar(c: char)
    | Space
    | SpaceRun(min: nat)
    | Digit
    | Boundary

  type Alt = seq<Token>

  predicate AllSpace(s: string, i: int, k: int)
    requires 0 <= i <= k <= |s|
  {
    forall m :: i <= m < k ==> IsSpace(s[m])
  }

  /** The tokens `alt` match exactly the characters `s[i..j]`. */
  ghost predicate Spans(s: string, i: int, alt: Alt, j: int)
    requires 0 <= i <= |s|
    decreases |alt|
  {
    if alt == [] then j == i
    else
      var rest := alt[1..];
      match alt[0]
      case Lit(t) => OccursAt(s, i, t) && Spans(s, i + |t|, rest, j)
      case OptChar(c) =>
        (i < |s| && s[i] == c && Spans(s, i + 1, rest, j)) || Spans(s, i, rest, j)
      case Space => i < |s| && IsSpace(s[i]) && Spans(s, i + 1, rest, j)
      case SpaceRun(min) =>
        exists k :: i + min <= k <= |s| && AllSpace(s, i, k) && Spans(s, k, rest, j)
      case Digit => i < |s| && IsDigit(s[i]) && Spans(s, i + 1, rest, j)
      case Boundary => AtBoundary(s, i) && Spans(s, i, rest, j)
  }

  /** Some match of `alt` starts at position `i`. */
  ghost predicate MatchesAt(s: string, i: int, alt: Alt)
    requires 0 <= i <= |s|
  {
    exists j :: Spans(s, i, alt, j)
  }

  /** `re.search` with a single alternative succeeds. */
  ghost predicate Occurs(s: string, alt: Alt) {
    exists i :: 0 <= i <= |s| && MatchesAt(s, i, alt)
  }

  /** `re.search` with the alternation `pat` succeeds. */
  ghost predicate Hits(s: string, pat: seq<Alt>) {
    exists n :: 0 <= n < |pat| && Occurs(s, pat[n])
  }

  /** Backtracking matcher: does some match of `alt` start at `i`? */
  function MatchFrom(s: string, i: int, alt: Alt): (r: bool)
    requires 0 <= i <= |s|
    decreases |alt|, |s| - i + 1
  {
    if alt == [] then true
    else
      var rest := alt[1..];
      match alt[0]
      case Lit(t) => OccursAt(s, i, t) && MatchFrom(s, i + |t|, rest)
      case OptChar(c) =>
        (i < |s| && s[i] == c && MatchFrom(s, i + 1, rest)) || MatchFrom(s, i, rest)
      case Space => i < |s| && IsSpace(s[i]) && MatchFrom(s, i + 1, rest)
      case SpaceRun(min) => RunFrom(s, i, min, rest)
      case Digit => i < |s| && IsDigit(s[i]) && MatchFrom(s, i + 1, rest)
      case Boundary => AtBoundary(s, i) && MatchFrom(s, i, rest)
  }

  /** A whitespace run starting at `k` of which at least `need` characters are
      still owed, followed by a match of `rest`. */
  function RunFrom(s: string, k: int, need: nat, rest: Alt): (r: bool)
    requires 0 <= k <= |s|
    decreases |rest|, |s| - k + 2
  {
    (need == 0 && MatchFrom(s, k, rest))
    || (k < |s| && IsSpace(s[k]) && RunFrom(s, k + 1, if need == 0 then 0 else need - 1, rest))
  }

  /** Tries every start position from `i` to the end of `s`. */
  function SearchFrom(s: string, i: int, alt: Alt): (r: bool)
    requires 0 <= i <= |s|
    decreases |s| - i
  {
    MatchFrom(s, i, alt) || (i < |s| && SearchFrom(s, i + 1, alt))
  }

  /** `re.search(pat, s) is not None`: tries each alternative of `pat` in turn. */
  function Search(s: string, pat: seq<Alt>): (r: bool)
    decreases |pat|
  {
    |pat| > 0 && (SearchFrom(s, 0, pat[0]) || Search(s, pat[1..]))
  }

  lemma {:induction false} MatchFromCorrect(s: string, i: int, alt: Alt)
    requires 0 <= i <= |s|
    ensures MatchFrom(s, i, alt) <==> MatchesAt(s, i, alt)
    decreases |alt|, |s| - i + 1
  {
    if alt == [] {
      assert Spans(s, i, alt, i);
    } else {
      var rest := alt[1..];
      match alt[0]
      case Lit(t) =>
        if OccursAt(s, i, t) {
          MatchFromCorrect(s, i + |t|, rest);
          if MatchesAt(s, i + |t|, rest) {
            var j :| Spans(s, i + |t|, rest, j);
            assert Spans(s, i, alt, j);
          }
          if MatchesAt(s, i, alt) {
            var j :| Spans(s, i, alt, j);
            assert Spans(s, i + |t|, rest, j);
          }
        }
      case OptChar(c) =>
        MatchFromCorrect(s, i, rest);
        if MatchesAt(s, i, rest) {
          var j :| Spans(s, i, rest, j);
          assert Spans(s, i, alt, j);
        }
        if i < |s| && s[i] == c {
          MatchFromCorrect(s, i + 1, rest);
          if MatchesAt(s, i + 1, rest) {
            var j :| Spans(s, i + 1, rest, j);
            assert Spans(s, i, alt, j);
          }
        }
        if MatchesAt(s, i, alt) {
          var j :| Spans(s, i, alt, j);
          if !Spans(s, i, rest, j) {
            assert Spans(s, i + 1, rest, j);
          }
        }
      case Space =>
        if i < |s| && IsSpace(s[i]) {
          MatchFromCorrect(s, i + 1, rest);
          if MatchesAt(s, i + 1, rest) {
            var j :| Spans(s, i + 1, rest, j);
            assert Spans(s, i, alt, j);
          }
          if MatchesAt(s, i, alt) {
            var j :| Spans(s, i, alt, j);
            assert Spans(s, i + 1, rest, j);
          }
        }
      case SpaceRun(min) =>
        RunFromCorrect(s, i, min, rest);
        if MatchesAt(s, i, alt) {
          var j :| Spans(s, i, alt, j);
          var k :| i + min <= k <= |s| && AllSpace(s, i, k) && Spans(s, k, rest, j);
          assert MatchesAt(s, k, rest);
        }
        if RunFrom(s, i, min, rest) {
          var k :| i + min <= k <= |s| && AllSpace(s, i, k) && MatchesAt(s, k, rest);
          var j :| Spans(s, k, rest, j);
          assert Spans(s, i, alt, j);
        }
      case Digit =>
        if i < |s| && IsDigit(s[i]) {
          MatchFromCorrect(s, i + 1, rest);
          if MatchesAt(s, i + 1, rest) {
            var j :| Spans(s, i + 1, rest, j);
            assert Spans(s, i, alt, j);
          }
          if MatchesAt(s, i, alt) {
            var j :| Spans(s, i, alt, j);
            assert Spans(s, i + 1, rest, j);
          }
        }
      case Boundary =>
        if AtBoundary(s, i) {
          MatchFromCorrect(s, i, rest);
          if MatchesAt(s, i, rest) {
            var j :| Spans(s, i, rest, j);
            assert Spans(s, i, alt, j);
          }
          if MatchesAt(s, i, alt) {
            var j :| Spans(s, i, alt, j);
            assert Spans(s, i, rest, j);
          }
        }
    }
  }

  lemma {:induction false} RunFromCorrect(s: string, k: int, need: nat, rest: Alt)
    requires 0 <= k <= |s|
    ensures RunFrom(s, k, need, rest) <==>
            exists k' :: k + need <= k' <= |s| && AllSpace(s, k, k') && MatchesAt(s, k', rest)
    decreases |rest|, |s| - k + 2
  {
    var need' := if need == 0 then 0 else need - 1;
    MatchFromCorrect(s, k, rest);
    if k < |s| && IsSpace(s[k]) {
      RunFromCorrect(s, k + 1, need', rest);
    }
    if RunFrom(s, k, need, rest) {
      if need == 0 && MatchFrom(s, k, rest) {
        assert AllSpace(s, k, k);
      } else {
        var k' :| k + 1 + need' <= k' <= |s| && AllSpace(s, k + 1, k') && MatchesAt(s, k', rest);
        assert AllSpace(s, k, k');
      }
    }
    if exists k' :: k + need <= k' <= |s| && AllSpace(s, k, k') && MatchesAt(s, k', rest) {
      var k' :| k + need <= k' <= |s| && AllSpace(s, k, k') && MatchesAt(s, k', rest);
      if k' > k {
        assert IsSpace(s[k]);
        assert AllSpace(s, k + 1, k');
      }
    }
  }

  lemma {:induction false} SearchFromCorrect(s: string, i: int, alt: Alt)
    requires 0 <= i <= |s|
    ensures SearchFrom(s, i, alt) <==> exists i' :: i <= i' <= |s| && MatchesAt(s, i', alt)
    decreases |s| - i
  {
    MatchFromCorrect(s, i, alt);
    if i < |s| {
      SearchFromCorrect(s, i + 1, alt);
    }
  }

  /** The search succeeds exactly when some alternative has a match somewhere. */
  lemma {:induction false} SearchCorrect(s: string, pat: seq<Alt>)
    ensures Search(s, pat) <==> Hits(s, pat)
    decreases |pat|
  {
    if |pat| > 0 {
      SearchFromCorrect(s, 0, pat[0]);
      SearchCorrect(s, pat[1..]);
      if Hits(s, pat[1..]) {
        var n :| 0 <= n < |pat[1..]| && Occurs(s, pat[1..][n]);
        assert Occurs(s, pat[n + 1]);
      }
      if Hits(s, pat) {
        var n :| 0 <= n < |pat| && Occurs(s, pat[n]);
        if n > 0 {
          assert Occurs(s, pat[1..][n - 1]);
        }
      }
    }
  }

  /** The fewest characters any match of `alt` consumes. */
  function MinWidth(alt: Alt): (r: nat)
    decreases |alt|
  {
    if alt == [] then 0
    else
      var w := match alt[0]
        case Lit(t) => |t|
        case OptChar(_) => 0
        case Space => 1
        case SpaceRun(min) => min
        case Digit => 1
        case Boundary => 0;
      w + MinWidth(alt[1..])
  }

  /** Every match of `alt` lies inside `s` and is at least `MinWidth(alt)` long. */
  lemma {:induction false} SpansWidth(s: string, i: int, alt: Alt, j: int)
    requires 0 <= i <= |s| && Spans(s, i, alt, j)
    ensures i + MinWidth(alt) <= j <= |s|
    decreases |alt|
  {
    if alt != [] {
      var rest := alt[1..];
      match alt[0]
      case Lit(t) => SpansWidth(s, i + |t|, rest, j);
      case OptChar(c) =>
        if i < |s| && s[i] == c && Spans(s, i + 1, rest, j) {
          SpansWidth(s, i + 1, rest, j);
        } else {
          SpansWidth(s, i, rest, j);
        }
      case Space => SpansWidth(s, i + 1, rest, j);
      case SpaceRun(min) =>
        var k :| i + min <= k <= |s| && AllSpace(s, i, k) && Spans(s, k, rest, j);
        SpansWidth(s, k, rest, j);
      case Digit => SpansWidth(s, i + 1, rest, j);
      case Boundary => SpansWidth(s, i, rest, j);
    }
  }

  /** Every alternative of `pat` consumes at least one character. */
  predicate NeedsText(pat: seq<Alt>) {
    forall n :: 0 <= n < |pat| ==> MinWidth(pat[n]) > 0
  }

  /** A pattern all of whose alternatives need at least one character never
      occurs in the empty string. */
  lemma NoHitInEmpty(pat: seq<Alt>)
    requires NeedsText(pat)
    ensures !Search("", pat)
  {
    SearchCorrect("", pat);
    if Hits("", pat) {
      var n :| 0 <= n < |pat| && Occurs("", pat[n]);
      var i :| 0 <= i <= 0 && MatchesAt("", i, pat[n]);
      var j :| Spans("", i, pat[n], j);
      SpansWidth("", i, pat[n], j);
    }
  }

  // ---- one-step unfoldings of `Spans` on an alternative written `[token] + rest` ----

  lemma SpansLit(s: string, i: int, t: string, rest: Alt, j: int)
    requires 0 <= i <= |s|
    ensures Spans(s, i, [Lit(t)] + rest, j) <==> OccursAt(s, i, t) && Spans(s, i + |t|, rest, j)
  {
    assert ([Lit(t)] + rest)[1..] == rest;
  }

  lemma SpansOptChar(s: string, i: int, c: char, rest: Alt, j: int)
    requires 0 <= i <= |s|
    ensures Spans(s, i, [OptChar(c)] + rest, j) <==>
            (i < |s| && s[i] == c && Spans(s, i + 1, rest, j)) || Spans(s, i, rest, j)
  {
    assert ([OptChar(c)] + rest)[1..] == rest;
  }

  lemma SpansSpaceRun(s: string, i: int, min: nat, rest: Alt, j: int)
    requires 0 <= i <= |s|
    ensures Spans(s, i, [SpaceRun(min)] + rest, j) <==>
            exists k :: i + min <= k <= |s| && AllSpace(s, i, k) && Spans(s, k, rest, j)
  {
    assert ([SpaceRun(min)] + rest)[1..] == rest;
  }

  lemma SpansDigit(s: string, i: int, rest: Alt, j: int)
    requires 0 <= i <= |s|
    ensures Spans(s, i, [Digit] + rest, j) <==> i < |s| && IsDigit(s[i]) && Spans(s, i + 1, rest, j)
  {
    assert ([Digit] + rest)[1..] == rest;
  }

  lemma SpansBoundary(s: string, i: int, rest: Alt, j: int)
    requires 0 <= i <= |s|
    ensures Spans(s, i, [Boundary] + rest, j) <==> AtBoundary(s, i) && Spans(s, i, rest, j)
  {
    assert ([Boundary] + rest)[1..] == rest;
  }

  lemma SpansEmpty(s: string, i: int, j: int)
    requires 0 <= i <= |s|
    ensures Spans(s, i, [], j) <==> j == i
  {
  }

  /** A match of alternative `n` found anywhere makes the search succeed. */
  lemma SearchFinds(s: string, pat: seq<Alt>, n: int, i: int, j: int)
    requires 0 <= n < |pat| && 0 <= i <= |s| && Spans(s, i, pat[n], j)
    ensures Search(s, pat)
  {
    SearchCorrect(s, pat);
    assert MatchesAt(s, i, pat[n]);
    assert Occurs(s, pat[n]);
  }
}

=== FILE: text.dfy ===
/**
 Characters and strings as the classifier and the toggle reader see them:
 ASCII lower-casing, the character classes behind the regular-expression
 escapes `\s`, `\w`, `\d` and `\b`, and plain substring containment.
 */
module Text {

  datatype Option<+T> = None | Some(value: T)

  predicate IsUpper(c: char) {
    'A' <= c <= 'Z'
  }

  /** `str.lower()` restricted to ASCII: upper-case letters map to lower case,
      every other character is left as it is. */
  function LowerChar(c: char): (r: char)
    ensures !IsUpper(r)
    ensures !IsUpper(c) ==> r == c
    ensures IsUpper(c) ==> r as int == c as int + 32
  {
    if IsUpper(c) then (c as int + 32) as char else c
  }

  function Lower(s: string): (r: string)
    ensures |r| == |s|
    ensures forall i :: 0 <= i < |s| ==> r[i] == LowerChar(s[i])
  {
    seq(|s|, i requires 0 <= i < |s| => LowerChar(s[i]))
  }

  /** A lower-cased string has no upper-case letter left. */
  predicate IsLower(s: string) {
    forall i :: 0 <= i < |s| ==> !IsUpper(s[i])
  }

  lemma LowerIsLower(s: string)
    ensures IsLower(Lower(s))
  {
  }

  /** Lower-casing a string that has no upper-case letter changes nothing. */
  lemma LowerOfLower(s: string)
    requires IsLower(s)
    ensures Lower(s) == s
  {
  }

  lemma LowerIdempotent(s: string)
    ensures Lower(Lower(s)) == Lower(s)
  {
    LowerIsLower(s);
    LowerOfLower(Lower(s));
  }

  /** `\s` on a `str` pattern: the characters for which `str.isspace()` holds. */
  predicate IsSpace(c: char) {
    var n := c as int;
    (9 <= n <= 13) || (0x1C <= n <= 0x20) || n == 0x85 || n == 0xA0 || n == 0x1680
    || (0x2000 <= n <= 0x200A) || n == 0x2028 || n == 0x2029 || n == 0x202F
    || n == 0x205F || n == 0x3000
  }

  /** `\d`, ASCII digits only. */
  predicate IsDigit(c: char) {
    '0' <= c <= '9'
  }

  /** `\w`, ASCII letters, digits and the underscore. */
  predicate IsWordChar(c: char) {
    ('a' <= c <= 'z') || IsUpper(c) || IsDigit(c) || c == '_'
  }

  /** Word character immediately before position `i`; false at the start. */
  predicate WordBefore(s: string, i: int)
    requires 0 <= i <= |s|
  {
    i > 0 && IsWordChar(s[i - 1])
  }

  /** Word character at position `i`; false at the end. */
  predicate WordAt(s: string, i: int)
    requires 0 <= i <= |s|
  {
    i < |s| && IsWordChar(s[i])
  }

  /** `\b`: exactly one side of position `i` is a word character. */
  predicate AtBoundary(s: string, i: int)
    requires 0 <= i <= |s|
  {
    WordBefore(s, i) != WordAt(s, i)
  }

  /** `t` occurs in `s` starting at position `i`. */
  predicate OccursAt(s: string, i: int, t: string)
    requires 0 <= i <= |s|
  {
    i + |t| <= |s| && s[i..i + |t|] == t
  }

  /** Python's `t in s` for strings. */
  predicate Contains(s: string, t: string) {
    exists i :: 0 <= i <= |s| && OccursAt(s, i, t)
  }

  /** `a + b` occurs at `i` exactly when `a` does and `b` follows it. */
  lemma OccursAtConcat(s: string, i: int, a: string, b: string)
    requires 0 <= i <= |s|
    ensures OccursAt(s, i, a + b) <==> OccursAt(s, i, a) && OccursAt(s, i + |a|, b)
  {
    if OccursAt(s, i, a) && OccursAt(s, i + |a|, b) {
      assert s[i..i + |a + b|] == s[i..i + |a|] + s[i + |a|..i + |a| + |b|];
    }
    if OccursAt(s, i, a + b) {
      assert s[i..i + |a|] == (a + b)[..|a|];
      assert s[i + |a|..i + |a| + |b|] == (a + b)[|a|..];
    }
  }
}

=== FILE: toggle.dfy ===
/**
 The labelled-switch helper of the add-document dialog: find the control a
 label names, infer whether it is on, and press it only when it is not in the
 wanted state. A control is an abstract record of what each browser call on
 it returns: a value, or an error.
 */
module Toggle {
  import opened Text

  /** The answer of one browser call: a value, or a raised error. */
  datatype Read<+T> = Value(v: T) | Throws

  datatype Action = Click | PressSpace | PressEnter

  /** One interaction with the control and whether it went through. */
  datatype Attempt = Attempt(action: Action, ok: bool)

  /** What the calls on a found control return. The attribute reads give `None`
      for an attribute that is absent. */
  datatype Control = Control(
    isChecked: Read<bool>,
    ariaChecked: Read<Option<string>>,
    dataState: Read<Option<string>>,
    className: Read<Option<string>>,
    clickOk: bool,
    spaceOk: bool,
    enterOk: bool)

  /** The last lookup: text matching the label, then the nearest ancestor that
      holds a switch-like control, then that control inside it. */
  datatype LabelPath = NoLabel | NoContainer | Container(inner: Option<Control>)

  /** What the three lookups find in the panel for one label. */
  datatype Site = Site(switchRole: Option<Control>, checkboxRole: Option<Control>, byLabel: LabelPath)

  /** The control the helper acts on: the `switch` role first, then the
      `checkbox` role, then the control inside the label's container. */
  function Target(site: Site): (r: Option<Control>)
    ensures r.None? <==>
            && site.switchRole.None? && site.checkboxRole.None?
            && !(site.byLabel.Container? && site.byLabel.inner.Some?)
    ensures site.switchRole.Some? ==> r == site.switchRole
    ensures site.switchRole.None? && site.checkboxRole.Some? ==> r == site.checkboxRole
    ensures site.switchRole.None? && site.checkboxRole.None? && site.byLabel.Container? ==>
              r == site.byLabel.inner
  {
    if site.switchRole.Some? then site.switchRole
    else if site.checkboxRole.Some? then site.checkboxRole
    else if site.byLabel.Container? then site.byLabel.inner
    else None
  }

  /** Python's `a or b` on an optional string: `a` unless it is absent or empty. */
  function OrElse(a: Option<string>, b: string): (r: string)
    ensures a.Some? && a.value != "" ==> r == a.value
    ensures a.None? || a.value == "" ==> r == b
  {
    if a.Some? && a.value != "" then a.value else b
  }

  /** `(aria-checked or data-state or "").lower()`; `data-state` is read only
      when `aria-checked` is absent or empty, and an error in either read
      ends the attempt. */
  function AttrText(c: Control): (r: Read<string>)
    ensures r.Throws? <==>
            || c.ariaChecked.Throws?
            || (c.ariaChecked.Value? && !Named(c.ariaChecked.v) && c.dataState.Throws?)
  {
    match c.ariaChecked
    case Throws => Throws
    case Value(a) =>
      if a.Some? && a.value != "" then Value(Lower(a.value))
      else
        match c.dataState
        case Throws => Throws
        case Value(d) => Value(Lower(OrElse(d, "")))
  }

  /** An attribute that is present and not empty. */
  predicate Named(a: Option<string>) {
    a.Some? && a.value != ""
  }

  const OnWords: seq<string> := ["true", "on", "checked"]
  const OffWords: seq<string> := ["false", "off", "unchecked"]

  /** The state the attribute text names, if it names one; an error while
      reading counts as naming none. A non-empty `aria-checked` decides alone;
      otherwise `data-state` does, and an absent one names nothing. */
  function AttrState(c: Control): (r: Option<bool>)
    ensures c.ariaChecked.Throws? ==> r.None?
    ensures c.ariaChecked.Value? && Named(c.ariaChecked.v) ==>
              && (r == Some(true) <==> Lower(c.ariaChecked.v.value) in OnWords)
              && (r == Some(false) <==> Lower(c.ariaChecked.v.value) in OffWords)
    ensures c.ariaChecked.Value? && !Named(c.ariaChecked.v) ==>
              && (c.dataState.Throws? || c.dataState == Value(None) ==> r.None?)
              && (c.dataState.Value? && c.dataState.v.Some? ==>
                    && (r == Some(true) <==> Lower(c.dataState.v.value) in OnWords)
                    && (r == Some(false) <==> Lower(c.dataState.v.value) in OffWords))
  {
    match AttrText(c)
    case Throws => None
    case Value(t) => if t in OnWords then Some(true) else if t in OffWords then Some(false) else None
  }

  const ClassKeywords: seq<string> := ["on", "checked", "active", "enabled"]

  /** The class fallback: on exactly when one of the keywords occurs anywhere
      in the lower-cased class string, off without a class attribute; an error
      while reading propagates. */
  function ClassState(c: Control): (r: Read<bool>)
    ensures r.Throws? <==> c.className.Throws?
    ensures c.className == Value(None) ==> r == Value(false)
    ensures c.className.Value? && c.className.v.Some? ==>
              (r == Value(true) <==>
               exists w :: w in ClassKeywords && Contains(Lower(c.className.v.value), w))
  {
    match c.className
    case Throws => Throws
    case Value(k) =>
      Value(exists w :: w in ClassKeywords && Contains(Lower(OrElse(k, "")), w))
  }

  /** The inferred state: `is_checked()` when it answers, otherwise the
      attribute text when it names a state, otherwise the class keywords. */
  function InferState(c: Control): (r: Read<bool>)
    ensures c.isChecked.Value? ==> r == Value(c.isChecked.v)
    ensures c.isChecked.Throws? && AttrState(c).Some? ==> r == Value(AttrState(c).value)
    ensures c.isChecked.Throws? && AttrState(c).None? ==> r == ClassState(c)
    ensures r.Throws? <==> c.isChecked.Throws? && AttrState(c).None? && c.className.Throws?
  {
    if c.isChecked.Value? then Value(c.isChecked.v)
    else if AttrState(c).Some? then Value(AttrState(c).value)
    else ClassState(c)
  }

  /** Click; if the click raises, press Space; if that raises, press Enter;
      an error from Enter is dropped. */
  function Interact(c: Control): (r: seq<Attempt>)
    ensures 1 <= |r| <= 3
    ensures forall k :: 0 <= k < |r| ==> r[k].action == [Click, PressSpace, PressEnter][k]
    ensures forall k :: 0 <= k < |r| ==> r[k].ok == [c.clickOk, c.spaceOk, c.enterOk][k]
    ensures forall k :: 0 <= k < |r| - 1 ==> !r[k].ok
    ensures |r| < 3 ==> r[|r| - 1].ok
  {
    if c.clickOk then [Attempt(Click, true)]
    else if c.spaceOk then [Attempt(Click, false), Attempt(PressSpace, true)]
    else [Attempt(Click, false), Attempt(PressSpace, false), Attempt(PressEnter, c.enterOk)]
  }

  /** What the helper reports: whether it found a control (its return value),
      and the interactions it attempted. */
  datatype ToggleResult = ToggleResult(found: bool, attempts: seq<Attempt>)

  /** `_set_toggle(label, want)` on the lookups `site`. */
  function SetToggle(site: Site, want: bool): (r: Read<ToggleResult>)
    ensures Target(site).None? ==> r == Value(ToggleResult(false, []))
    ensures r.Throws? <==> Target(site).Some? && InferState(Target(site).value).Throws?
    ensures r.Value? ==> (r.v.found <==> Target(site).Some?)
    ensures r.Value? ==>
              (r.v.attempts != [] <==> Target(site).Some? && InferState(Target(site).value) != Value(want))
    ensures r.Value? && r.v.attempts != [] ==> r.v.attempts == Interact(Target(site).value)
  {
    match Target(site)
    case None => Value(ToggleResult(false, []))
    case Some(c) =>
      match InferState(c)
      case Throws => Throws
      case Value(state) =>
        if state != want then Value(ToggleResult(true, Interact(c)))
        else Value(ToggleResult(true, []))
  }

  /** How many of the attempted interactions went through. */
  function Landed(attempts: seq<Attempt>): (r: nat) {
    if attempts == [] then 0
    else (if attempts[0].ok then 1 else 0) + Landed(attempts[1..])
  }
}

=== FILE: toggle_facts.dfy ===
/**
 Properties of the labelled-switch helper: when it touches the control, how
 it reads the current state, and why a second call with the same wish does
 not press again once the first press is visible.
 */
module ToggleFacts {
  import opened Text
  import opened Toggle

  // ---- lookup ----

  /** The helper reports "not found" and touches nothing exactly when none of
      the three lookups yields a control. */
  lemma NotFoundIffNoLookupHits(site: Site, want: bool)
    ensures SetToggle(site, want) == Value(ToggleResult(false, [])) <==>
            && site.switchRole.None? && site.checkboxRole.None?
            && (site.byLabel.NoLabel? || site.byLabel.NoContainer? || site.byLabel.inner.None?)
  {
  }

  /** Once a control is found and its state can be read, the helper reports
      success, whether or not any press went through. */
  lemma FoundIsReportedEvenIfPressesFail(site: Site, want: bool)
    requires Target(site).Some? && InferState(Target(site).value).Value?
    ensures SetToggle(site, want).Value? && SetToggle(site, want).v.found
  {
  }

  // ---- reading the state ----

  /** A non-empty `aria-checked` decides alone, whatever its case: `data-state`
      is not consulted. */
  lemma AriaCheckedDecides(c: Control, a: string)
    requires c.isChecked.Throws? && c.ariaChecked == Value(Some(a)) && a != ""
    ensures Lower(a) in OnWords ==> InferState(c) == Value(true)
    ensures Lower(a) in OffWords ==> InferState(c) == Value(false)
    ensures InferState(c) == InferState(c.(dataState := Throws))
  {
  }

  /** An absent or empty `aria-checked` hands over to `data-state`. */
  lemma EmptyAriaFallsBackToDataState(c: Control, d: string)
    requires c.isChecked.Throws? && c.ariaChecked in {Value(None), Value(Some(""))}
    requires c.dataState == Value(Some(d))
    ensures Lower(d) in OnWords ==> InferState(c) == Value(true)
    ensures Lower(d) in OffWords ==> InferState(c) == Value(false)
  {
  }

  /** "TRUE" and "Off" name states just as their lower-case forms do. */
  lemma AttributeCaseIgnored(c: Control)
    requires c.isChecked.Throws? && c.ariaChecked == Value(Some("TRUE"))
    ensures InferState(c) == Value(true)
    ensures InferState(c.(ariaChecked := Value(Some("Off")))) == Value(false)
  {
    assert Lower("TRUE") == "true";
    assert Lower("Off") == "off";
  }

  /** An error while reading the attributes is dropped: the class decides. */
  lemma AttributeErrorFallsToClass(c: Control)
    requires c.isChecked.Throws?
    requires c.ariaChecked.Throws?
             || (c.ariaChecked.Value? && OrElse(c.ariaChecked.v, "") == "" && c.dataState.Throws?)
    ensures InferState(c) == ClassState(c)
  {
  }

  /** An error while reading the class is not caught by the helper. */
  lemma ClassErrorPropagates(site: Site, want: bool)
    requires Target(site).Some?
    requires var c := Target(site).value;
             c.isChecked.Throws? && AttrState(c).None? && c.className.Throws?
    ensures SetToggle(site, want).Throws?
  {
  }

  /** A state read from `is_checked()` wins over every attribute and class. */
  lemma IsCheckedWins(c: Control, c': Control)
    requires c.isChecked.Value? && c'.isChecked == c.isChecked
    ensures InferState(c) == InferState(c') == Value(c.isChecked.v)
  {
  }

  /** The class test is a bare substring test: "button" holds "on", "inactive"
      holds "active" and "toggle-unchecked" holds "checked", so all three read
      as on. */
  lemma SubstringClassesReadOn(c: Control)
    requires c.isChecked.Throws? && AttrState(c).None?
    requires c.className in {Value(Some("button")), Value(Some("Inactive")), Value(Some("toggle-unchecked"))}
    ensures InferState(c) == Value(true)
  {
    var k := Lower(c.className.v.value);
    if c.className == Value(Some("button")) {
      assert k == "button" && OccursAt(k, 4, "on");
      assert "on" in ClassKeywords;
    } else if c.className == Value(Some("Inactive")) {
      assert k == "inactive" && OccursAt(k, 2, "active");
      assert "active" in ClassKeywords;
    } else {
      assert k == "toggle-unchecked" && OccursAt(k, 9, "checked");
      assert "checked" in ClassKeywords;
    }
  }

  /** A missing class attribute reads as off. */
  lemma NoClassReadsOff(c: Control)
    requires c.isChecked.Throws? && AttrState(c).None? && c.className == Value(None)
    ensures InferState(c) == Value(false)
  {
  }

  /** The class keywords are matched without regard to ASCII case: a class
      string and its lower-cased form read the same. */
  lemma ClassCaseIgnored(c: Control, k: string)
    ensures ClassState(c.(className := Value(Some(k))))
            == ClassState(c.(className := Value(Some(Lower(k)))))
  {
    LowerIdempotent(k);
  }

  // ---- pressing ----

  /** At most one press goes through, and one does exactly when the click,
      Space or Enter is accepted. */
  lemma InteractLandsOnce(c: Control)
    ensures Landed(Interact(c)) == if c.clickOk || c.spaceOk || c.enterOk then 1 else 0
  {
    var r := Interact(c);
    if c.clickOk {
      assert r[1..] == [];
    } else if c.spaceOk {
      assert r[1..][1..] == [];
    } else {
      assert r[1..][1..][1..] == [];
      assert Landed(r[1..][1..]) == if c.enterOk then 1 else 0;
    }
  }

  /** The helper presses only when the inferred state differs from the wish. */
  lemma PressOnlyWhenStateDiffers(site: Site, want: bool)
    requires SetToggle(site, want).Value?
    ensures Landed(SetToggle(site, want).v.attempts) > 0 ==>
              InferState(Target(site).value) == Value(!want)
    ensures Target(site).Some? && InferState(Target(site).value) == Value(want) ==>
              SetToggle(site, want).v.attempts == []
  {
    if Target(site).Some? && InferState(Target(site).value) == Value(!want) {
      InteractLandsOnce(Target(site).value);
    }
  }

  /** Idempotence: a first call whose press went through is followed by a
      state read that shows the wish; a first call with no press that went
      through leaves the page as it was. Then the two calls together put
      through at most one press. */
  lemma TwoCallsPressAtMostOnce(site1: Site, site2: Site, want: bool)
    requires SetToggle(site1, want).Value?
    requires Landed(SetToggle(site1, want).v.attempts) > 0 ==>
               Target(site2).Some? && InferState(Target(site2).value) == Value(want)
    requires Landed(SetToggle(site1, want).v.attempts) == 0 ==> site2 == site1
    ensures SetToggle(site2, want).Value?
    ensures Landed(SetToggle(site1, want).v.attempts) + Landed(SetToggle(site2, want).v.attempts) <= 1
  {
    var r1 := SetToggle(site1, want).v;
    if Target(site1).Some? && InferState(Target(site1).value) == Value(!want) {
      InteractLandsOnce(Target(site1).value);
    }
    if Landed(r1.attempts) > 0 {
      assert SetToggle(site2, want).v.attempts == [];
    }
  }
}
